=== FILE: README.md ===
# commonlib core in Dafny

This project models four pieces of the xezon/commonlib C++ headers and proves properties of them.

- **`vector_map`** (include/common/vector_map.h) is a `std::map` replacement. It keeps unique keys as `(key, value)` entries in one vector sorted by key. `find`, `upper_bound`, `equal_range`, `insert` and `operator[]` are all built on a hand-written binary search, `lower_bound`; `count` calls `std::binary_search`. The range constructors append their input and sort it once; `SwapElementsWithVector` swaps the caller's vector in and sorts it once.
- **The `stl` helpers** (include/common/stl.h, repeated in include/stl.h):
  - `find_and_erase` and `find_and_erase_if` erase the first matching element.
  - `binary_find` and `binary_find_index` run `std::lower_bound` and then check equivalence.
- **The data enum**: `util::data_enum` in include/common/enum.h and `CDataEnum` in include/data_enum.h. An enum value is paired with three arrays that the `DEFINE_DATA_ENUM_CLASS` macro unrolls from an enumerator list: values, names and metadata. `ordinal()` is a linear search of the value array; `name()` and `meta()` index their arrays by the ordinal.
- **include/common/util.h**:
  - the 256-entry ASCII lower-casing table and both `to_lower_ascii` overloads;
  - the null-tolerant C-string helpers `is_valid_string` and `get_valid_string`.

Modules follow the headers:

| module | file | contents |
|---|---|---|
| `Wrappers` | wrappers.dfy | `Option` |
| `Ordering` | ordering.dfy | strict weak orderings, equivalence, sortedness of entries |
| `KeySort` | key_sort.dfy | the one `std::sort` by key: a sorted permutation |
| `VectorMap` | vector_map.dfy | the map state and every operation |
| `VectorMapProperties` | vector_map_props.dfy | properties spanning several operations, and the `int` narrowing |
| `Stl` | stl.dfy | the `stl` helpers |
| `DataEnum` | data_enum.dfy | the data enum |
| `EnumSamples` | enum_samples.dfy | the sample enums of both enum headers |
| `Util` | util.dfy | the ASCII table and the string helpers |

How the model works:

- A map is its comparator `less` (a function value; the source keeps it as an empty base class) plus its entry sequence. Every operation is a pure function from the old map to the new one.
- Iterators are indices, and `|entries|` plays the part of `end()`.
- `VectorMap.Ordered` says that the comparator is a strict weak ordering and the entries are sorted by key, possibly with equivalent keys side by side. The range constructors always reach it.
- The invariant `VectorMap.Valid` adds that the keys are strictly ascending, so no key occurs twice. Each mutation proves that it keeps `Valid`.
- `lower_bound` and `find` (both their as-written and corrected versions), `erase(where)` and `erase(key)` are modelled on `Ordered` states, so the model also covers what they do after a range constructor kept a duplicate key. The other operations are modelled on valid maps.
- The reference meaning of a map is `VectorMap.Lookup`, the map read as a partial function. The lemmas in `VectorMapProperties` state what every mutation does to it.

Where the code does something a reader might not expect, the model records it:

- `equal_range` of an absent key returns `(end, end)`, not the empty range at the lower bound (`VectorMapProperties.EqualRangeBounds`).
- The range constructors do not remove duplicate keys. The result is then ordered but not a valid map, and `erase(key)` removes only the first of the entries for `key` (`VectorMapProperties.FromRangeKeepsDuplicates`, `VectorMapProperties.EraseKeyLeavesDuplicate`); see "Findings".
- Range `insert` calls single `insert` once per element, in input order, so the first occurrence of a key wins. It does not sort (`VectorMapProperties.InsertRangeLookup`).
- `erase_if` is `std::remove_if` followed by a full `std::sort`. On a valid map that sort never changes anything, because the survivors are already in strictly ascending order (`VectorMap.EraseIf`).
- `lower_bound` counts in an `int`; see "Findings". Only `lower_bound` and `find` have an as-written twin with that count (`VectorMap.LowerBoundAsWritten`, `VectorMap.LowerBoundLoop`, `VectorMap.FindAsWritten`); the operations built on them use the full-width search.

## Model

| member | source | states |
|---|---|---|
| `VectorMap.EquivalentEntryUnique` | include/common/vector_map.h:329-337 | because `insert` only adds absent keys, a valid map holds at most one entry equivalent to any key |
| `VectorMap.Empty` | include/common/vector_map.h:139-155 | the default and comparator constructors give a valid map that contains no key |
| `VectorMap.FromRange` | include/common/vector_map.h:164-189 | the range constructors yield a permutation of the input sorted by key with duplicates kept; it is a valid map exactly when the input keys are distinct |
| `VectorMap.SwapElementsWithVector` | include/common/vector_map.h:191-196 | the map takes a sorted permutation of the caller's vector, valid exactly when the vector's keys are distinct, and the caller gets the previous entries back |
| `VectorMap.Search` | include/common/vector_map.h:361-376 | each halving step keeps the answer inside `[first, first + count]`: everything before `first` is below the key, nothing from `first + count` on is, and `count` strictly decreases |
| `VectorMap.BoundaryUnique` | include/common/vector_map.h:358-377 | only one position splits the entries into "below the key" and "not below the key" |
| `VectorMap.LowerBound` | include/common/vector_map.h:358-398 | on any ordered state, duplicates included: the least position whose key is not below the search key; every entry before it is below, none after it is |
| `VectorMap.ToInt32` | include/common/vector_map.h:361-362 | assigning the size to `int` is two's-complement narrowing: congruent modulo 2^32, within the `int` range, and the identity below 2^31 |
| `VectorMap.SearchedPrefix` | include/common/vector_map.h:361-365 | the loop searches at most the whole vector, and exactly the whole vector below 2^31 entries |
| `VectorMap.LowerBoundAsWritten` | include/common/vector_map.h:358-377 | with the `int` count, the result is the lower bound of the searched prefix only; it equals the true lower bound below 2^31 entries |
| `VectorMap.LowerBoundLoop` | include/common/vector_map.h:379-398 | the imperative loop on `first` and the signed `count` computes the lower bound of the searched prefix, and the true lower bound below 2^31 entries |
| `VectorMap.Find` | include/common/vector_map.h:305-321 | on any ordered state: `find` is before `end()` exactly when the key is present, and then the entry there is equivalent to the key and every entry before it is below the key, so it is the first such entry |
| `VectorMap.FindAsWritten` | include/common/vector_map.h:305-312 | built on the as-written lower bound, `find` can only return an entry that is not above the key; it is the true `find` below 2^31 entries |
| `VectorMap.Count` | include/common/vector_map.h:228-232 | `count` is at most one, and it is one exactly when the key is present |
| `VectorMap.UpperBound` | include/common/vector_map.h:449-465 | the first position whose key is above the search key: no entry before it is above, every entry after it is |
| `VectorMap.EqualRange` | include/common/vector_map.h:252-274 | for a present key, the one-entry range of its equivalent entry; for an absent key, `(end, end)` |
| `VectorMap.Lookup` | include/common/vector_map.h:305-312 | the map read through `find` as a partial function: defined exactly on the present keys, and giving the value of the equivalent entry |
| `VectorMap.IsEmpty` | include/common/vector_map.h:234-238 | `empty()` holds exactly when `size()` (`VectorMap.Size`) is zero, and exactly when no key is present |
| `VectorMap.InsertAtLowerBoundKeepsAscending` | include/common/vector_map.h:332-335 | the new entry goes at the lower bound when the entry there has a greater key; this keeps the keys strictly ascending |
| `VectorMap.Insert` | include/common/vector_map.h:329-337 | absent key: the entry goes at the lower bound, every other entry keeps its order, and `true` is returned. Present key: nothing changes, the old value is kept, and the position `find` reports comes back with `false`. The map stays valid either way |
| `VectorMap.InsertHinted` | include/common/vector_map.h:339-343 | the hint is ignored: exactly `insert(val)` — a present key leaves the map unchanged and yields `find`'s position; an absent key is spliced in at its lower bound with every other entry kept in order, and that position is returned |
| `VectorMap.InsertRange` | include/common/vector_map.h:345-350 | inserting element by element keeps the map valid and adds at most one entry per input element |
| `VectorMap.Subscript` | include/common/vector_map.h:467-474 | present key: the map is unchanged and the slot is the one `find` reports. Absent key: `(key, V())` is inserted at its lower bound, and the slot holds the default value |
| `VectorMap.ErasePos` | include/common/vector_map.h:276-280 | the entry goes, the later entries move down by one, and the returned position designates what followed; the state stays ordered, and in a valid map the erased key is then absent and the map stays valid |
| `VectorMap.EraseRange` | include/common/vector_map.h:290-294 | the entries in `[first, last)` go, the later entries move down, all erased keys are absent, and the returned position is `first` |
| `VectorMap.EraseKey` | include/common/vector_map.h:296-303 | exactly the entry `find` designates goes, so the size drops by one exactly when the key was present; every entry with another key survives; an absent key is a no-op; in a valid map the key is absent afterwards and the map stays valid |
| `VectorMap.RemoveIf` | include/common/vector_map.h:286 | `remove_if` keeps exactly the elements failing the predicate, each drawn from the input, in a sub-multiset of the input |
| `VectorMap.RemoveIfKeepsAscending` | include/common/vector_map.h:282-288 | removing entries from strictly ascending keys leaves them strictly ascending |
| `VectorMap.EraseIf` | include/common/vector_map.h:282-288 | the result is exactly the entries failing the predicate, in their original order, so the `std::sort` afterwards changes nothing and the map stays valid |
| `VectorMap.Clear` | include/common/vector_map.h:210-214 | `clear()` leaves a valid map of size zero with the same comparator |
| `VectorMap.Swap` | include/common/vector_map.h:442-447 | the two maps exchange both their entries and their comparators, so each stays valid and holds exactly the other's keys |
| `KeySort.SortByKey` | include/common/vector_map.h:169 | `std::sort` with `FirstLess` gives a permutation of its input sorted by key |
| `KeySort.SortAscendingIsIdentity` | include/common/vector_map.h:287 | sorting entries whose keys are already strictly ascending returns them unchanged |
| `KeySort.SortKeepsDistinct` | include/common/vector_map.h:178 | sorting keeps pairwise distinct keys distinct |
| `KeySort.AscendingPermutationUnique` | include/common/vector_map.h:188 | two strictly ascending arrangements of the same entries are equal, whichever sort produced them |
| `VectorMapProperties.InsertMembers` | include/common/vector_map.h:334-335 | after `insert` every old entry is still present, every entry is old or the inserted one, and an absent key's entry is present |
| `VectorMapProperties.InsertLookup` | include/common/vector_map.h:330-336 | after `insert(entry)`: a present key keeps its value; the inserted key, if it was absent, maps to the new value; every other key stays absent |
| `VectorMapProperties.InsertTwiceKeepsFirst` | include/common/vector_map.h:334 | inserting a second value under the same key does not overwrite the first |
| `VectorMapProperties.EraseKeyLookup` | include/common/vector_map.h:297-303 | after `erase(key)` the erased key, and everything equivalent to it, is absent; every other key keeps its value |
| `VectorMapProperties.SubscriptLookup` | include/common/vector_map.h:468-474 | `operator[]` yields the stored value of a present key and the default value of an absent one; every other key is unaffected |
| `VectorMapProperties.EraseIfRemovesKey` | include/common/vector_map.h:284-286 | a key whose entry satisfies the predicate, or which was never present, is absent after `erase_if` |
| `VectorMapProperties.EraseIfLookup` | include/common/vector_map.h:282-288 | after `erase_if` a key keeps its value exactly when its entry fails the predicate, and is absent otherwise |
| `VectorMapProperties.InsertThenEraseIsIdentity` | include/common/vector_map.h:296-337 | inserting an absent key and then erasing it gives back the original map |
| `VectorMapProperties.RemovedKeyLowerBound` | include/common/vector_map.h:365-375 | after entry `i` is removed, the lower bound of its key is `i` |
| `VectorMapProperties.EraseThenInsertIsIdentity` | include/common/vector_map.h:299-335 | erasing a present entry and inserting it again gives back the original map |
| `VectorMapProperties.InsertRangeLookup` | include/common/vector_map.h:346-350 | after range `insert`, a key that was present keeps its value; otherwise the first input entry with an equivalent key wins |
| `VectorMapProperties.InsertAddsEntry` | include/common/vector_map.h:335 | inserting an absent key adds exactly its entry, as a multiset |
| `VectorMapProperties.InsertContains` | include/common/vector_map.h:332-335 | after `insert` a key is present exactly when it was before, or when it is equivalent to the inserted key |
| `VectorMapProperties.InsertRangeAddsAll` | include/common/vector_map.h:348-349 | inserting entries with fresh, distinct keys adds exactly those entries, as a multiset |
| `VectorMapProperties.FromRangeIsInsertRange` | include/common/vector_map.h:164-170 | for distinct keys, the range constructor and range `insert` into an empty map build the same map |
| `VectorMapProperties.FromRangeKeepsDuplicates` | include/common/vector_map.h:165-169 | with a repeated key the range constructor keeps both entries and breaks the invariant, while range `insert` keeps the first; `erase(1)` then leaves key 1 in the map built by the range constructor but not in the first-wins one |
| `VectorMapProperties.EraseKeyLeavesDuplicate` | include/common/vector_map.h:296-303 | in an ordered state with two entries for a key, `erase(key)` leaves the key present |
| `VectorMapProperties.FromRangeFirstWins` | include/common/vector_map.h:164-170 | the corrected range constructor: always a valid map, each key holding its first value in the input, and the same map as the range constructor whenever the keys are distinct |
| `KeySort.AscendingPermutationKeysDistinct` | include/common/vector_map.h:164-170 | if the sorted entries are strictly ascending then the input keys, in whatever order, were distinct: the converse half of the range constructors' validity condition |
| `VectorMapProperties.EqualRangeBounds` | include/common/vector_map.h:252-262 | for a present key `equal_range` is `(lower_bound, upper_bound)`; for an absent key those two coincide, yet `equal_range` returns `(end, end)` |
| `VectorMapProperties.FindAsWrittenMissesPresentKey` | include/common/vector_map.h:361-372 | a map with 2^31 entries where `find(1)` as written returns the entry for key 0, while key 1 is present |
| `VectorMapProperties.InsertRangeExample` | include/common/vector_map.h:345-350 | inserting 5, 1 and 3 stores them as 1, 3, 5 |
| `VectorMapProperties.EraseKeyExample` | include/common/vector_map.h:296-303 | erasing 3 from 1, 3, 5 leaves 1, 5 |
| `Stl.RemoveFirst` | include/common/stl.h:39-49 | reference definition: without its first occurrence of the value the sequence is one shorter, and it is unchanged when the value does not occur |
| `Stl.RemoveFirstMatch` | include/stl.h:41-51 | reference definition: the same for the first element satisfying a predicate, as a sub-multiset |
| `Stl.FindAndErase` | include/stl.h:29-39 | returns true exactly when the value occurs; then exactly its first occurrence is gone and the rest keep their order; otherwise the container is unchanged |
| `Stl.FindAndEraseIf` | include/common/stl.h:51-61 | returns true exactly when some element satisfies the predicate; then exactly the first such element is gone; otherwise the container is unchanged |
| `Stl.RemoveFirstMatchOfEquality` | include/common/stl.h:39-61 | `find_and_erase_if` with the predicate "equals the value" erases what `find_and_erase` erases |
| `Stl.RemoveFirstOfInserted` | include/common/stl.h:42-46 | erasing a value placed after elements different from it gives back the elements around it |
| `Stl.SortedIsPartitioned` | include/common/stl.h:66 | a range sorted by a strict weak ordering meets the partition precondition of `std::lower_bound` for every value |
| `Stl.LowerBound` | include/stl.h:56 | `std::lower_bound`: every element before the result is below the value, none from it on is |
| `Stl.BinaryFind` | include/common/stl.h:63-68 | the result is before `last` exactly when some element of the range is equivalent to the value; then that element is equivalent and everything before it is below the value |
| `Stl.BinaryFindIndex` | include/stl.h:60-65 | the distance from `first` of the element `binary_find` finds; it equals the range length exactly when no element is equivalent |
| `Stl.FirstEquivalent` | include/common/stl.h:67 | reference definition: a linear scan for the first equivalent element |
| `Stl.BinaryFindIsFirstEquivalent` | include/stl.h:53-58 | on a sorted range `binary_find` finds the first equivalent element, the same as a linear scan |
| `DataEnum.Count` | include/common/enum.h:38-40 | `count()` is the number of enumerators, which is the length of every array and positive |
| `DataEnum.Default` | include/data_enum.h:30 | the default instance holds the first enumerator: it is valid and its ordinal is 0 |
| `DataEnum.OrdinalFrom` | include/data_enum.h:57-60 | the loop yields the first position holding the value, and runs off the end exactly when no enumerator has it |
| `DataEnum.Ordinal` | include/common/enum.h:62-68 | `ordinal()` is the first position holding the value, or `~0u` when the value is no enumerator's |
| `DataEnum.IsValidFrom` | include/common/enum.h:79-82 | the loop finds the value exactly when some position from its start on holds it |
| `DataEnum.IsValid` | include/common/enum.h:78-83 | `is_valid()` holds exactly when the value is some enumerator's |
| `DataEnum.IsValidIffOrdinalInRange` | include/common/enum.h:62-83 | `is_valid()` agrees with `ordinal() < count()` whenever there are fewer than 2^32 - 1 enumerators |
| `DataEnum.GetByOrdinal` | include/common/enum.h:41-44 | `get_by_ordinal` is defined exactly below `count()`; its result holds the value at that position, is valid, and has an ordinal no larger than the one asked for |
| `DataEnum.GetByValue` | include/data_enum.h:40-44 | a release build casts without a check: `value()` gives the argument back, and the instance is valid exactly when the argument is an enumerator's value |
| `DataEnum.GetByValueChecked` | include/common/enum.h:45-49 | a debug build rejects exactly the values that are no enumerator's (inside the debug `ordinal()`); an accepted instance holds the argument |
| `DataEnum.Name` | include/data_enum.h:67-69 | `name()` is the name at `ordinal()`; it exists exactly for valid instances |
| `DataEnum.Meta` | include/common/enum.h:75-77 | `meta()` is the metadata at `ordinal()`; it exists exactly for valid instances |
| `DataEnum.OrdinalChecked` | include/data_enum.h:57-63 | in a debug build `ordinal()` succeeds exactly for valid instances and then agrees with the release build; otherwise the release build's answer is `~0u` |
| `DataEnum.OrdinalOfGetByOrdinal` | include/data_enum.h:36-63 | from an ordinal to an instance and back: the ordinal is recovered exactly when no earlier enumerator has the same value |
| `DataEnum.GetByOrdinalOfOrdinal` | include/common/enum.h:41-68 | from a valid instance to its ordinal and back gives the same instance |
| `DataEnum.ComparisonsConsistent` | include/data_enum.h:73-90 | the six operators (`DataEnum.Eq`, `Ne`, `Lt`, `Gt`, `Le`, `Ge`, each comparing `m_value`) are one total order on the underlying values: `!=` negates `==`, `>` and `>=` mirror `<` and `<=`, and `==` holds exactly when neither is less |
| `DataEnum.Define` | include/common/enum.h:98-114 | `DEFINE_DATA_ENUM_CLASS` builds three arrays of the list's length, holding each enumerator's name and metadata in order and its C++ value: the initializer if there is one, otherwise 0 for the first enumerator and one more than the previous value for the others |
| `EnumSamples.FruitArrays` | include/common/enum.h:135-141 | Fruit's values are 44, 55, 66, 67 (Pineapple follows Banana implicitly), with names Apple, Orange, Banana, Pineapple |
| `EnumSamples.FruitSample` | include/data_enum.h:141-177 | the sample's outcomes: Orange has ordinal 1 and name "Orange"; Banana has ordinal 2, value 66 and yellow metadata; Banana differs from Apple; Pineapple is 67; the count is 4; ordinal 5 gives nothing |
| `EnumSamples.FruitDefinitionsDiffer` | include/data_enum.h:141-147 | the two headers' Fruit enums agree on values and names and differ only in Pineapple's description |
| `EnumSamples.DummySample` | include/common/enum.h:176-182 | the dummy enumerators are 0 to 3; the value 4 is invalid, has ordinal `~0u` and has no name |
| `Util.ToUnsigned` | include/common/util.h:61 | `static_cast<unsigned char>` of a signed `char` keeps the bit pattern (congruent modulo 256) |
| `Util.ToSigned` | include/common/util.h:61 | converting a byte back to a signed `char` inverts `ToUnsigned` |
| `Util.LowerAsciiTableFollowsRule` | include/common/util.h:18-52 | the table has 256 entries; entry `i` is `i + 0x20` for 'A'..'Z' and `i` for every other index, including 0x80..0xFF |
| `Util.ToLowerAscii` | include/common/util.h:54-57 | 0x41..0x5A map to 0x61..0x7A, and every other byte maps to itself |
| `Util.ToLowerAsciiChar` | include/common/util.h:59-62 | the `char` overload agrees with the `unsigned char` overload through the cast, so negative characters are left alone and 'A'..'Z' are lowered |
| `Util.ToLowerAsciiIdempotent` | include/common/util.h:54-57 | lowering twice equals lowering once, and no result is an upper-case letter |
| `Util.IsValidStringIffNonEmpty` | include/common/util.h:64-68 | `is_valid_string` (`Util.IsValidString`) holds exactly for non-null, non-empty strings; null and "" are invalid |
| `Util.GetValidStringProperties` | include/common/util.h:70-78 | `get_valid_string` (`Util.GetValidString`) maps null to "" and leaves every non-null string unchanged; it preserves validity and is idempotent |

## Left out

- `reserve`, `capacity`, `max_size` and `get_allocator`: capacity and allocators are not modelled. They only pass through to `std::vector`.
- `clearAndFreeMemory`: `stl::free_container` is not part of this model. Its effect on the entries is that of `clear()`, which is modelled.
- `GetMemoryUsage` and the other profiling hooks are not modelled.
- Iterators, `begin`/`end`, iterator invalidation, the copy constructor and `key_comp`: positions are indices, a copy is the same value, and `key_comp()` is the map's `less` field.
- The const and non-const overloads of `find`, `lower_bound`, `upper_bound` and `equal_range` are modelled once each. They have identical bodies.
- `insert` (`VectorMap.Insert`, `VectorMap.InsertHinted`, `VectorMap.InsertRange`), `operator[]`, `erase(key)`, `upper_bound`, `equal_range` and the `Lookup` reading are built on the full-width `VectorMap.LowerBound` and `VectorMap.Find`. From 2^31 entries on they model the intended behaviour, not the source's: there the source's `erase(1)` on keys 0 .. 2^31 - 1 goes through the as-written `find(1)` and erases key 0 (`VectorMapProperties.FindAsWrittenMissesPresentKey`).
- VectorMap.Count: models the intended 0/1 membership test through `find`. The source calls `std::binary_search` over whole `(key, mapped_type())` pairs with the raw key comparator; that is not modelled literally.
- VectorMap.UpperBound: the const overload declares a non-const iterator. That type slip is not modelled; the overload computes the same position.
- VectorMap.InsertHinted: the hint iterator is taken but ignored, exactly as in the source. The source declares the result an `iterator` but returns the `pair` of single `insert` (include/common/vector_map.h:342), which does not compile once instantiated; the model returns the position the pair holds.
- Operations other than `lower_bound`, `find`, `erase(where)` and `erase(key)` are modelled on valid maps only (`requires Valid`). After a range constructor with a repeated key the map is merely ordered; what `insert`, `count`, `upper_bound`, `equal_range`, `operator[]` and `erase_if` then do is not modelled.
- VectorMap.InsertRange: its own contract states validity and size bounds only. What it stores is stated by `VectorMapProperties.InsertRangeLookup` and `VectorMapProperties.InsertRangeAddsAll`.
- KeySort.SortByKey: `std::sort` is unstable, so only "a permutation sorted by key" is promised. The body is one such sort. For distinct keys that permutation is unique (`KeySort.AscendingPermutationUnique`).
- include/stl.h repeats the algorithms of include/common/stl.h verbatim. One model covers both, and the table cites each file for part of it.
- Stl.BinaryFind: the value has the element type. The source allows a comparator over two different types.
- `string_format`, `wstring_format` and the other non-core helpers of both stl.h files are not modelled. They use `snprintf`.
- The static `ordinal_of`, `value_of`, `name_of` and `meta_of` forwarders are not modelled. Each only calls the instance member of the same name.
- DataEnum.Value: `value()` is the field access itself and has no separate contract. `DataEnum.GetByValue` states `get_by_value(x).value() == x`.
- DataEnum.GetByOrdinal: reading outside the arrays is undefined behaviour in a release build, and throws or asserts in a debug build. The model returns `None` instead.
- DataEnum.Ordinal: models the release build only, where a value that is no enumerator's yields `~0u`. With DATA_ENUM_DEBUGGING set to 1 or 2 that case throws or asserts instead (include/common/enum.h:66, include/data_enum.h:61); `DataEnum.OrdinalChecked` models that build.
- DataEnum.Name: for an invalid instance a release build indexes `m_names` at `~0u`, which is undefined behaviour, and a debug build fails inside `ordinal()`; the model returns `None` for both. The "exactly for valid instances" part assumes fewer than 2^32 - 1 enumerators, so that `~0u` cannot be a real ordinal.
- DataEnum.Meta: as for `DataEnum.Name`.
- DataEnum.GetByValueChecked: the debug build's throw (`DATA_ENUM_DEBUGGING == 1`) and assert (`== 2`) both become `None`.
- The underlying integer type of an enum is unbounded here. A `= value` initializer that overflows the declared type is not modelled.
- `Util.LowerAsciiTableFollowsRule` stores the table as byte patterns. The source spells the entries as `char` literals. A plain `char` is taken to be signed, as on MSVC and x86 gcc.
- The `wchar_t` overload of `get_valid_string` is modelled by the same function. Characters are not distinguished by width.
- The rest of util.h, and include/common/util_c.h and include/common/utils_c.h, are not modelled. These are file, sleep, memset and malloc wrappers, and copies of the string checks above.

## Findings

| source | as written | input that shows it | evidently intended | confidence | as-written member | corrected member |
|---|---|---|---|---|---|---|
| include/common/vector_map.h:361-362 | `int count = m_entries.size();` narrows the `size_t` size to a 32-bit `int`. From 2^31 entries on the count is negative or too small, so `lower_bound`, and with it `find`, `insert`, `erase(key)` and `operator[]`, searches only a prefix or nothing. | a map whose keys are 0 .. 2^31 - 1: the count wraps to -2^31, the loop never runs, and `find(1)` returns the entry for key 0 | count in `size_type` (or `difference_type`) so that the whole vector is searched | not executed | `VectorMap.LowerBoundAsWritten`, `VectorMap.FindAsWritten`, `VectorMapProperties.FindAsWrittenMissesPresentKey` | `VectorMap.LowerBound`, `VectorMap.Find` |
| include/common/vector_map.h:164-170 | The range constructors push every element and sort once, without removing duplicate keys, although the class is documented as a drop-in replacement for `std::map`, whose keys are unique. The map is then sorted but not valid, and `find`/`erase(key)` act on the first of the equal entries only. | the range `[(1, 'a'), (1, 'b')]`: the map holds two entries, and after `erase(1)` key 1 is still present | insert the elements one by one, as range `insert` does, so the first value of a repeated key wins and the map stays valid | not executed | `VectorMap.FromRange`, `VectorMapProperties.FromRangeKeepsDuplicates`, `VectorMapProperties.EraseKeyLeavesDuplicate` | `VectorMapProperties.FromRangeFirstWins` |

=== FILE: data_enum.dfy ===
/** Model of the data enum of include/common/enum.h (`util::data_enum`) and its
    copy include/data_enum.h (`CDataEnum`): an enum value paired with the arrays that
    DEFINE_DATA_ENUM_CLASS generates from the enumerator list — values, names and
    metadata, in declaration order — and the lookups between them.

    The ordinal lookups are linear scans over the value array. When no enumerator
    has the instance's value, `ordinal()` returns `~0u` in a release build and raises
    (or asserts) in a debug build, selected by DATA_ENUM_DEBUGGING; `name()` and
    `meta()` read their arrays at that ordinal, so they then read out of bounds in a
    release build and fail through `ordinal()` in a debug build. Likewise
    `get_by_ordinal` outside the arrays and `get_by_value` of a value that is no
    enumerator's raise in a debug build. The model returns `None` wherever either
    build fails or reads out of bounds, and models both builds of `ordinal()` and
    `get_by_value`. */
module DataEnum {

  import opened Wrappers

  /** `~0u`: an `unsigned int` with all 32 bits set, widened to `size_t`. */
  const NotFound: nat := 0xFFFF_FFFF

  /** The three arrays of an enum definition, `m_values`, `m_names` and `m_metas`,
      with each enumerator's value as its underlying integer. */
  datatype Definition<M> = Definition(values: seq<int>, names: seq<string>, metas: seq<M>)

  /** The arrays come from one enumerator list, so they have equal lengths, and a
      C++ array cannot be empty. */
  predicate WellFormed<M>(d: Definition<M>)
  {
    |d.values| > 0 && |d.names| == |d.values| && |d.metas| == |d.values|
  }

  /** An instance: its `m_value`, as the underlying integer. */
  datatype Enum = Enum(value: int)

  /** `count()`: the number of enumerators. */
  function Count<M>(d: Definition<M>): (r: nat)
    requires WellFormed(d)
    ensures 0 < r && r == |d.names| && r == |d.metas|
  {
    |d.values|
  }

  /** The default constructor: the first enumerator. */
  function Default<M>(d: Definition<M>): (r: Enum)
    requires WellFormed(d)
    ensures IsValid(d, r) && Ordinal(d, r) == 0
  {
    Enum(d.values[0])
  }

  // ---------------------------------------------------------------------------
  // Ordinal and validity

  /** The loop of `ordinal()` from position `i` on: the first position holding `v`,
      or nothing when the loop runs off the end. */
  function OrdinalFrom(values: seq<int>, v: int, i: nat): (r: Option<nat>)
    requires i <= |values|
    requires forall j :: 0 <= j < i ==> values[j] != v
    ensures r.Some? <==> v in values
    ensures r.Some? ==> r.value < |values| && values[r.value] == v
    ensures r.Some? ==> forall j :: 0 <= j < r.value ==> values[j] != v
    decreases |values| - i
  {
    if i == |values| then None
    else if values[i] == v then Some(i)
    else OrdinalFrom(values, v, i + 1)
  }

  /** `ordinal()` in a release build: the first position holding the instance's
      value, or `~0u` when the value is not an enumerator's. */
  function Ordinal<M>(d: Definition<M>, e: Enum): (r: nat)
    ensures e.value in d.values ==> r < |d.values| && d.values[r] == e.value
    ensures e.value in d.values ==> forall j :: 0 <= j < r ==> d.values[j] != e.value
    ensures e.value !in d.values ==> r == NotFound
  {
    match OrdinalFrom(d.values, e.value, 0)
    case Some(i) => i
    case None => NotFound
  }

  /** `ordinal()` in a debug build: the same scan, but a value that is no
      enumerator's raises instead of yielding `~0u`. Where it succeeds it agrees with
      the release build. */
  function OrdinalChecked<M>(d: Definition<M>, e: Enum): (r: Option<nat>)
    ensures r.Some? <==> IsValid(d, e)
    ensures r.Some? ==> r.value < |d.values| && r.value == Ordinal(d, e)
    ensures r.None? ==> Ordinal(d, e) == NotFound
  {
    OrdinalFrom(d.values, e.value, 0)
  }

  /** The loop of `is_valid()` from position `i` on. */
  function IsValidFrom(values: seq<int>, v: int, i: nat): (r: bool)
    requires i <= |values|
    ensures r <==> exists j :: i <= j < |values| && values[j] == v
    decreases |values| - i
  {
    if i == |values| then false
    else if values[i] == v then true
    else IsValidFrom(values, v, i + 1)
  }

  /** `is_valid()`: the instance's value is an enumerator's. */
  function IsValid<M>(d: Definition<M>, e: Enum): (r: bool)
    ensures r <==> e.value in d.values
  {
    IsValidFrom(d.values, e.value, 0)
  }

  /** `is_valid()` agrees with `ordinal() < count()` as long as the sentinel `~0u`
      cannot be mistaken for an ordinal, i.e. for fewer than 2^32 - 1 enumerators. */
  lemma IsValidIffOrdinalInRange<M>(d: Definition<M>, e: Enum)
    requires WellFormed(d) && Count(d) <= NotFound
    ensures IsValid(d, e) <==> Ordinal(d, e) < Count(d)
  {
  }

  // ---------------------------------------------------------------------------
  // Lookups

  /** `get_by_ordinal(ordinal)`: the enumerator at that position; outside the array
      there is none (a debug build raises). */
  function GetByOrdinal<M>(d: Definition<M>, ordinal: nat): (r: Option<Enum>)
    requires WellFormed(d)
    ensures r.Some? <==> ordinal < Count(d)
    ensures r.Some? ==> Value(r.value) == d.values[ordinal]
    ensures r.Some? ==> IsValid(d, r.value) && Ordinal(d, r.value) <= ordinal
  {
    if ordinal < |d.values| then Some(Enum(d.values[ordinal])) else None
  }

  /** `get_by_value(value)` in a release build: the value is cast to the enum type
      without any check, so the instance may be invalid. */
  function GetByValue<M>(d: Definition<M>, value: int): (r: Enum)
    ensures IsValid(d, r) <==> value in d.values
    ensures Value(r) == value
  {
    Enum(value)
  }

  /** `get_by_value(value)` in a debug build: the instance is rejected when its
      ordinal is not below `count()`. The debug `ordinal()` already raises for a value
      that is no enumerator's, so the comparison itself never rejects anything. */
  function GetByValueChecked<M>(d: Definition<M>, value: int): (r: Option<Enum>)
    requires WellFormed(d)
    ensures r.Some? ==> Value(r.value) == value
    ensures r.Some? <==> value in d.values
  {
    var instance := GetByValue(d, value);
    match OrdinalChecked(d, instance)
    case None => None
    case Some(o) => if o >= Count(d) then None else Some(instance)
  }

  /** `value()`: the underlying integer. */
  function Value(e: Enum): int
  {
    e.value
  }

  /** `name()`: the enumerator's name, read at its ordinal. For an invalid instance
      there is no name: a release build reads at `~0u`, a debug build raises in
      `ordinal()`. */
  function Name<M>(d: Definition<M>, e: Enum): (r: Option<string>)
    requires WellFormed(d)
    ensures Count(d) <= NotFound ==> (r.Some? <==> IsValid(d, e))
    ensures r.Some? ==> r.value == d.names[Ordinal(d, e)]
  {
    var o := Ordinal(d, e);
    if o < |d.names| then Some(d.names[o]) else None
  }

  /** `meta()`: the enumerator's metadata, read at its ordinal; like `name()`, none
      for an invalid instance. */
  function Meta<M>(d: Definition<M>, e: Enum): (r: Option<M>)
    requires WellFormed(d)
    ensures Count(d) <= NotFound ==> (r.Some? <==> IsValid(d, e))
    ensures r.Some? ==> r.value == d.metas[Ordinal(d, e)]
  {
    var o := Ordinal(d, e);
    if o < |d.metas| then Some(d.metas[o]) else None
  }

  /** From an ordinal to an instance and back: the ordinal comes back unless an
      earlier enumerator has the same value, in which case the earliest one's
      ordinal does. */
  lemma {:induction false} OrdinalOfGetByOrdinal<M>(d: Definition<M>, ordinal: nat)
    requires WellFormed(d) && ordinal < Count(d)
    ensures Ordinal(d, GetByOrdinal(d, ordinal).value) == ordinal
        <==> forall j :: 0 <= j < ordinal ==> d.values[j] != d.values[ordinal]
  {
    var e := GetByOrdinal(d, ordinal).value;
    var o := Ordinal(d, e);
    if o != ordinal {
      assert o < ordinal && d.values[o] == d.values[ordinal];
    }
  }

  /** From a valid instance to its ordinal and back gives the instance again. */
  lemma GetByOrdinalOfOrdinal<M>(d: Definition<M>, e: Enum)
    requires WellFormed(d) && IsValid(d, e)
    ensures GetByOrdinal(d, Ordinal(d, e)) == Some(e)
  {
  }

  // ---------------------------------------------------------------------------
  // Comparisons (include/data_enum.h; include/common/enum.h compares through the
  // implicit conversion to the enum type, with the same outcome)

  predicate Eq(a: Enum, b: Enum) { a.value == b.value }
  predicate Ne(a: Enum, b: Enum) { a.value != b.value }
  predicate Lt(a: Enum, b: Enum) { a.value < b.value }
  predicate Gt(a: Enum, b: Enum) { a.value > b.value }
  predicate Le(a: Enum, b: Enum) { a.value <= b.value }
  predicate Ge(a: Enum, b: Enum) { a.value >= b.value }

  /** The six operators are one total order on the underlying values: `!=` negates
      `==`, `>` and `>=` are `<` and `<=` reversed, `<=` is `<` or `==`, and `==`
      is exactly "neither is less". */
  lemma ComparisonsConsistent(a: Enum, b: Enum, c: Enum)
    ensures Ne(a, b) <==> !Eq(a, b)
    ensures Gt(a, b) <==> Lt(b, a)
    ensures Ge(a, b) <==> Le(b, a)
    ensures Le(a, b) <==> Lt(a, b) || Eq(a, b)
    ensures Eq(a, b) <==> !Lt(a, b) && !Lt(b, a)
    ensures !Lt(a, a)
    ensures Lt(a, b) && Lt(b, c) ==> Lt(a, c)
    ensures Lt(a, b) || Eq(a, b) || Gt(a, b)
  {
  }

  // ---------------------------------------------------------------------------
  // DEFINE_DATA_ENUM_CLASS

  /** One entry of an enumerator list: the name, the optional `= value` initializer
      and the metadata. */
  datatype Enumerator<M> = Enumerator(name: string, init: Option<int>, meta: M)

  /** The value C++ gives the enumerator at position `i`: its initializer if it has
      one, otherwise one more than the previous enumerator, and 0 for the first. */
  function EnumeratorValue<M>(list: seq<Enumerator<M>>, i: nat): int
    requires i < |list|
  {
    match list[i].init
    case Some(v) => v
    case None => if i == 0 then 0 else EnumeratorValue(list, i - 1) + 1
  }

  /** DEFINE_DATA_ENUM_CLASS: the three arrays unrolled from the list, position by
      position. */
  function Define<M>(list: seq<Enumerator<M>>): (d: Definition<M>)
    requires |list| > 0
    ensures WellFormed(d) && Count(d) == |list|
    ensures forall i :: 0 <= i < |list| ==>
              d.values[i] == EnumeratorValue(list, i) && d.names[i] == list[i].name && d.metas[i] == list[i].meta
    ensures forall i :: 0 <= i < |list| && list[i].init.Some? ==> d.values[i] == list[i].init.value
    ensures list[0].init.None? ==> d.values[0] == 0
    ensures forall i :: 0 < i < |list| && list[i].init.None? ==> d.values[i] == d.values[i - 1] + 1
  {
    Definition(seq(|list|, i requires 0 <= i < |list| => EnumeratorValue(list, i)),
               seq(|list|, i requires 0 <= i < |list| => list[i].name),
               seq(|list|, i requires 0 <= i < |list| => list[i].meta))
  }
}

=== FILE: enum_samples.dfy ===
/** The sample enums declared under DATA_ENUM_SAMPLE in include/common/enum.h and
    include/data_enum.h, and the outcomes their example function documents. */
module EnumSamples {

  import opened Wrappers
  import opened DataEnum

  /** `enum class FruitColor`. */
  datatype FruitColor = Red | Orange | Yellow | Brown

  /** `struct FruitMeta`. */
  datatype FruitMeta = FruitMeta(description: string, color: FruitColor)

  /** FRUIT_ENUM_LIST. The two headers differ only in Pineapple's description. */
  function FruitList(pineappleDescription: string): seq<Enumerator<FruitMeta>>
  {
    [ Enumerator("Apple", Some(44), FruitMeta("Apples are rare", Red)),
      Enumerator("Orange", Some(55), FruitMeta("Oranges are orange", Orange)),
      Enumerator("Banana", Some(66), FruitMeta("Bananas are long", Yellow)),
      Enumerator("Pineapple", None, FruitMeta(pineappleDescription, Brown)) ]
  }

  /** `Fruit` of include/common/enum.h. */
  function CommonFruit(): Definition<FruitMeta>
  {
    Define(FruitList("Pineapples are tasty"))
  }

  /** `Fruit` of include/data_enum.h. */
  function DataFruit(): Definition<FruitMeta>
  {
    Define(FruitList("Pineapples are the tasty"))
  }

  /** The arrays DEFINE_DATA_ENUM_CLASS unrolls from FRUIT_ENUM_LIST: Pineapple,
      which has no initializer, follows Banana's 66 with 67. */
  lemma FruitArrays(pineappleDescription: string)
    ensures var d := Define(FruitList(pineappleDescription));
            && d.values == [44, 55, 66, 67]
            && d.names == ["Apple", "Orange", "Banana", "Pineapple"]
            && d.metas[3] == FruitMeta(pineappleDescription, Brown)
  {
    var list := FruitList(pineappleDescription);
    var d := Define(list);
    assert EnumeratorValue(list, 3) == 67;
    assert d.values == [44, 55, 66, 67];
    assert d.names == ["Apple", "Orange", "Banana", "Pineapple"];
  }

  /** What the sample function documents, for either definition of `Fruit`: Orange
      has ordinal 1, value 55 and name "Orange"; Banana has ordinal 2, value 66, name
      "Banana" and yellow metadata; Banana differs from Apple; Pineapple's implicit
      value is 67; there are four fruits; and ordinal 5 names none of them. */
  lemma FruitSample(pineappleDescription: string)
    ensures var d := Define(FruitList(pineappleDescription));
            && WellFormed(d)
            && Count(d) == 4
            && Ordinal(d, Enum(55)) == 1
            && Name(d, Enum(55)) == Some("Orange")
            && Meta(d, Enum(55)) == Some(FruitMeta("Oranges are orange", Orange))
            && Ordinal(d, Enum(66)) == 2
            && Name(d, Enum(66)) == Some("Banana")
            && Meta(d, Enum(66)) == Some(FruitMeta("Bananas are long", Yellow))
            && !Eq(Enum(66), Enum(44))
            && d.values[3] == 67
            && GetByOrdinal(d, 5) == None
  {
    FruitArrays(pineappleDescription);
  }

  /** The two definitions of `Fruit` agree on every value and name and differ only in
      Pineapple's description. */
  lemma FruitDefinitionsDiffer()
    ensures CommonFruit().values == DataFruit().values
    ensures CommonFruit().names == DataFruit().names
    ensures CommonFruit().metas[3].description != DataFruit().metas[3].description
  {
    FruitArrays("Pineapples are tasty");
    FruitArrays("Pineapples are the tasty");
  }

  /** DUMMY_ENUM_LIST: four enumerators without initializers and `false` as
      metadata. */
  function DummyEnum(): Definition<bool>
  {
    Define([ Enumerator("Enum1", None, false), Enumerator("Enum2", None, false),
             Enumerator("Enum3", None, false), Enumerator("Enum4", None, false) ])
  }

  /** The dummy enumerators take the values 0 to 3; the value 4 is no enumerator's,
      so its ordinal is `~0u` and it has no name. */
  lemma DummySample()
    ensures WellFormed(DummyEnum())
    ensures DummyEnum().values == [0, 1, 2, 3]
    ensures !IsValid(DummyEnum(), Enum(4)) && Ordinal(DummyEnum(), Enum(4)) == NotFound
    ensures Name(DummyEnum(), Enum(4)) == None
  {
    var d := DummyEnum();
    assert d.values == [0, 1, 2, 3];
  }
}

=== FILE: key_sort.dfy ===
/** Model of the one `std::sort` pass that the sorted-sequence map runs with its
    `FirstLess` comparator (entries ordered by key only). The standard promises a
    sorted permutation and leaves the order of equivalent keys unspecified, so the
    contracts below promise exactly that; the body is one particular such sort
    (insertion by key). */
module KeySort {

  import opened Ordering

  /** An entry whose key is below the first key of a sorted sequence can go in
      front of it. */
  lemma PrependKeepsSorted<K(!new), V>(less: (K, K) -> bool, x: (K, V), s: seq<(K, V)>)
    requires StrictWeakOrder(less)
    requires SortedByKey(less, s) && |s| > 0 && less(x.0, s[0].0)
    ensures SortedByKey(less, [x] + s)
  {
    var r := [x] + s;
    forall i, j | 0 <= i < j < |r|
      ensures !less(r[j].0, r[i].0)
    {
      if i == 0 && j > 1 {
        assert !less(s[j - 1].0, s[0].0);
      }
    }
  }

  /** The step of `InsertByKey` that keeps the first entry in place: `t` is the rest
      with `x` inserted. */
  lemma InsertBehindHead<K(!new), V>(less: (K, K) -> bool, x: (K, V), s: seq<(K, V)>, t: seq<(K, V)>)
    requires StrictWeakOrder(less)
    requires SortedByKey(less, s) && |s| > 0 && !less(x.0, s[0].0)
    requires multiset(t) == multiset(s[1..]) + multiset{x} && SortedByKey(less, t)
    ensures multiset([s[0]] + t) == multiset(s) + multiset{x}
    ensures SortedByKey(less, [s[0]] + t)
  {
    assert s == [s[0]] + s[1..];
    forall j | 0 <= j < |t|
      ensures !less(t[j].0, s[0].0)
    {
      assert t[j] in multiset(t);
      if t[j] != x {
        var k :| 0 <= k < |s[1..]| && s[1..][k] == t[j];
        assert s[k + 1] == t[j];
      }
    }
  }

  /** Inserts `x` after every entry whose key is not greater than the key of `x`. */
  function InsertByKey<K(!new), V>(less: (K, K) -> bool, x: (K, V), s: seq<(K, V)>): (r: seq<(K, V)>)
    requires StrictWeakOrder(less)
    requires SortedByKey(less, s)
    ensures |r| == |s| + 1
    ensures multiset(r) == multiset(s) + multiset{x}
    ensures SortedByKey(less, r)
  {
    if |s| == 0 then [x]
    else if less(x.0, s[0].0) then
      PrependKeepsSorted(less, x, s);
      [x] + s
    else
      var t := InsertByKey(less, x, s[1..]);
      InsertBehindHead(less, x, s, t);
      [s[0]] + t
  }

  /** `std::sort(first, last, FirstLess(comp))`: a permutation of `s` sorted by key. */
  function SortByKey<K(!new), V>(less: (K, K) -> bool, s: seq<(K, V)>): (r: seq<(K, V)>)
    requires StrictWeakOrder(less)
    ensures |r| == |s|
    ensures multiset(r) == multiset(s)
    ensures SortedByKey(less, r)
    decreases |s|
  {
    if |s| == 0 then []
    else
      assert s == s[..|s| - 1] + [s[|s| - 1]];
      InsertByKey(less, s[|s| - 1], SortByKey(less, s[..|s| - 1]))
  }

  /** An entry whose key is above every key of `s` lands at the end. */
  lemma {:induction false} InsertAboveAll<K(!new), V>(less: (K, K) -> bool, x: (K, V), s: seq<(K, V)>)
    requires StrictWeakOrder(less)
    requires SortedByKey(less, s)
    requires forall i :: 0 <= i < |s| ==> less(s[i].0, x.0)
    ensures InsertByKey(less, x, s) == s + [x]
  {
    if |s| > 0 {
      assert !less(x.0, s[0].0);
      InsertAboveAll(less, x, s[1..]);
      assert s == [s[0]] + s[1..];
    }
  }

  /** Dropping the last entry of strictly ascending entries leaves them strictly
      ascending, with every key below the dropped one. */
  lemma AscendingInit<K(!new), V>(less: (K, K) -> bool, s: seq<(K, V)>, init: seq<(K, V)>)
    requires StrictWeakOrder(less)
    requires Ascending(less, s) && |s| > 0 && init == s[..|s| - 1]
    ensures Ascending(less, init) && SortedByKey(less, init)
    ensures forall i :: 0 <= i < |init| ==> less(init[i].0, s[|s| - 1].0)
  {
    assert forall i :: 0 <= i < |init| ==> init[i] == s[i];
  }

  /** Sorting keys that are already strictly ascending changes nothing. */
  lemma {:induction false} SortAscendingIsIdentity<K(!new), V>(less: (K, K) -> bool, s: seq<(K, V)>)
    requires StrictWeakOrder(less)
    requires Ascending(less, s)
    ensures SortByKey(less, s) == s
    decreases |s|
  {
    if |s| > 0 {
      var init, last := s[..|s| - 1], s[|s| - 1];
      AscendingInit(less, s, init);
      SortAscendingIsIdentity(less, init);
      InsertAboveAll(less, last, init);
      assert init + [last] == s;
    }
  }

  /** Inserting an entry whose key is new keeps the keys distinct. */
  lemma {:induction false} InsertKeepsDistinct<K(!new), V>(less: (K, K) -> bool, x: (K, V), s: seq<(K, V)>)
    requires StrictWeakOrder(less)
    requires SortedByKey(less, s) && KeysDistinct(less, s)
    requires !HasKey(less, s, x.0)
    ensures KeysDistinct(less, InsertByKey(less, x, s))
  {
    if |s| > 0 && !less(x.0, s[0].0) {
      var t := InsertByKey(less, x, s[1..]);
      assert !HasKey(less, s[1..], x.0);
      InsertKeepsDistinct(less, x, s[1..]);
      assert s == [s[0]] + s[1..];
      forall j | 0 <= j < |t|
        ensures !Equivalent(less, s[0].0, t[j].0)
      {
        assert t[j] in multiset(t);
        if t[j] != x {
          var k :| 0 <= k < |s[1..]| && s[1..][k] == t[j];
          assert s[k + 1] == t[j];
        }
      }
    }
  }

  /** Sorting keeps distinct keys distinct. */
  lemma {:induction false} SortKeepsDistinct<K(!new), V>(less: (K, K) -> bool, s: seq<(K, V)>)
    requires StrictWeakOrder(less)
    requires KeysDistinct(less, s)
    ensures KeysDistinct(less, SortByKey(less, s))
    decreases |s|
  {
    if |s| > 0 {
      var init := s[..|s| - 1];
      var x := s[|s| - 1];
      var t := SortByKey(less, init);
      SortKeepsDistinct(less, init);
      forall i | 0 <= i < |t|
        ensures !Equivalent(less, t[i].0, x.0)
      {
        assert t[i] in multiset(init);
        var k :| 0 <= k < |init| && init[k] == t[i];
        assert s[k] == t[i];
      }
      InsertKeepsDistinct(less, x, t);
    }
  }

  /** Two strictly ascending arrangements of the same entries are the same sequence:
      a sorted permutation of distinct keys is unique, whatever sort produced it. */
  lemma {:induction false} AscendingPermutationUnique<K(!new), V>(less: (K, K) -> bool, a: seq<(K, V)>, b: seq<(K, V)>)
    requires StrictWeakOrder(less)
    requires Ascending(less, a) && Ascending(less, b)
    requires multiset(a) == multiset(b)
    ensures a == b
    decreases |a|
  {
    assert |a| == |multiset(a)| == |multiset(b)| == |b|;
    if |a| > 0 {
      assert a[0] in multiset(b);
      assert b[0] in multiset(a);
      assert a[0] == b[0];
      calc {
        multiset(a[1..]);
        { assert a == [a[0]] + a[1..]; }
        multiset(a) - multiset{a[0]};
        { assert b == [b[0]] + b[1..]; }
        multiset(b[1..]);
      }
      AscendingPermutationUnique(less, a[1..], b[1..]);
    }
  }

  /** In strictly ascending entries no entry occurs twice. */
  lemma {:induction false} AscendingOccursOnce<K(!new), V>(less: (K, K) -> bool, s: seq<(K, V)>, x: (K, V))
    requires StrictWeakOrder(less)
    requires Ascending(less, s)
    ensures multiset(s)[x] <= 1
    decreases |s|
  {
    if |s| > 0 {
      assert s == [s[0]] + s[1..];
      AscendingOccursOnce(less, s[1..], x);
      if s[0] == x {
        forall k | 0 <= k < |s[1..]|
          ensures s[1..][k] != x
        {
          assert less(s[0].0, s[k + 1].0);
        }
      }
    }
  }

  /** An entry found at two positions is counted at least twice. */
  lemma OccursTwice<T>(s: seq<T>, i: nat, j: nat)
    requires i < j < |s|
    ensures s[i] == s[j] ==> multiset(s)[s[i]] >= 2
  {
    assert s == s[..j] + s[j..];
    assert s[i] == s[..j][i];
    assert s[j] == s[j..][0];
  }

  /** Entries that can be arranged with strictly ascending keys carry distinct keys,
      in whatever order they come. */
  lemma AscendingPermutationKeysDistinct<K(!new), V>(less: (K, K) -> bool, a: seq<(K, V)>, b: seq<(K, V)>)
    requires StrictWeakOrder(less)
    requires Ascending(less, a)
    requires multiset(a) == multiset(b)
    ensures KeysDistinct(less, b)
  {
    forall i, j | 0 <= i < j < |b|
      ensures !Equivalent(less, b[i].0, b[j].0)
    {
      OccursTwice(b, i, j);
      AscendingOccursOnce(less, a, b[i]);
      assert b[i] != b[j];
      assert b[i] in multiset(a) && b[j] in multiset(a);
      var p :| 0 <= p < |a| && a[p] == b[i];
      var q :| 0 <= q < |a| && a[q] == b[j];
      if p < q {
        assert less(a[p].0, a[q].0);
      } else {
        assert less(a[q].0, a[p].0);
      }
    }
  }
}

=== FILE: ordering.dfy ===
/** Comparator vocabulary shared by the sorted-sequence map and the sorted-range
    helpers. A comparator is a function value `less`; the source requires it to be a
    strict weak ordering and never checks it. */
module Ordering {

  /** Irreflexive, transitive and negatively transitive: the strict weak orderings
      that `std::less` and every comparator passed to `std::sort`/`std::lower_bound`
      must be. */
  ghost predicate StrictWeakOrder<T(!new)>(less: (T, T) -> bool)
  {
    && (forall a :: !less(a, a))
    && (forall a, b, c :: less(a, b) && less(b, c) ==> less(a, c))
    && (forall a, b, c :: less(a, c) ==> less(a, b) || less(b, c))
  }

  /** Neither is ordered before the other: the comparator's notion of "same key". */
  predicate Equivalent<T>(less: (T, T) -> bool, a: T, b: T)
  {
    !less(a, b) && !less(b, a)
  }

  /** Sorted with respect to `less` in the sense of the C++ standard: no element is
      ordered before an element that precedes it. */
  ghost predicate Sorted<T>(less: (T, T) -> bool, s: seq<T>)
  {
    forall i, j :: 0 <= i < j < |s| ==> !less(s[j], s[i])
  }

  /** The same, for (key, value) entries ordered by key. */
  ghost predicate SortedByKey<K, V>(less: (K, K) -> bool, s: seq<(K, V)>)
  {
    forall i, j :: 0 <= i < j < |s| ==> !less(s[j].0, s[i].0)
  }

  /** Keys strictly ascending: the representation invariant of the map. */
  ghost predicate Ascending<K, V>(less: (K, K) -> bool, s: seq<(K, V)>)
  {
    forall i, j :: 0 <= i < j < |s| ==> less(s[i].0, s[j].0)
  }

  /** No two entries carry equivalent keys. */
  ghost predicate KeysDistinct<K, V>(less: (K, K) -> bool, s: seq<(K, V)>)
  {
    forall i, j :: 0 <= i < j < |s| ==> !Equivalent(less, s[i].0, s[j].0)
  }

  /** Some entry carries a key equivalent to `key`. */
  ghost predicate HasKey<K, V>(less: (K, K) -> bool, s: seq<(K, V)>, key: K)
  {
    exists i :: 0 <= i < |s| && Equivalent(less, s[i].0, key)
  }

  /** Strictly ascending keys are exactly sorted keys without duplicates. */
  lemma AscendingIffSortedAndDistinct<K(!new), V>(less: (K, K) -> bool, s: seq<(K, V)>)
    requires StrictWeakOrder(less)
    ensures Ascending(less, s) <==> SortedByKey(less, s) && KeysDistinct(less, s)
  {
  }

  /** Under a strict weak ordering, equivalence is an equivalence relation and is
      compatible with the ordering. */
  lemma EquivalentProperties<T(!new)>(less: (T, T) -> bool, a: T, b: T, c: T)
    requires StrictWeakOrder(less)
    ensures Equivalent(less, a, a)
    ensures Equivalent(less, a, b) ==> Equivalent(less, b, a)
    ensures Equivalent(less, a, b) && Equivalent(less, b, c) ==> Equivalent(less, a, c)
    ensures Equivalent(less, a, b) && less(b, c) ==> less(a, c)
    ensures Equivalent(less, a, b) && less(c, b) ==> less(c, a)
  {
  }
}

=== FILE: stl.dfy ===
/** Model of the container and sorted-range helpers of namespace `stl`
    (include/common/stl.h, repeated verbatim in include/stl.h): erase the first
    element equal to a value or satisfying a predicate, and binary search for an
    element equivalent to a value. Containers are sequences, iterators positions. */
module Stl {

  import opened Ordering

  // ---------------------------------------------------------------------------
  // find_and_erase, find_and_erase_if

  /** Reference definition: `s` without its first occurrence of `value`. */
  function RemoveFirst<T(==)>(s: seq<T>, value: T): (r: seq<T>)
    ensures value in s ==> |r| == |s| - 1
    ensures value !in s ==> r == s
  {
    if |s| == 0 then []
    else if s[0] == value then
      assert s == [s[0]] + s[1..];
      s[1..]
    else
      assert s == [s[0]] + s[1..];
      [s[0]] + RemoveFirst(s[1..], value)
  }

  /** Reference definition: `s` without its first element satisfying `p`. */
  function RemoveFirstMatch<T>(s: seq<T>, p: T -> bool): (r: seq<T>)
    ensures (exists i :: 0 <= i < |s| && p(s[i])) ==> |r| == |s| - 1
    ensures (forall i :: 0 <= i < |s| ==> !p(s[i])) ==> r == s
    ensures multiset(r) <= multiset(s)
  {
    if |s| == 0 then []
    else if p(s[0]) then
      assert s == [s[0]] + s[1..];
      s[1..]
    else
      assert s == [s[0]] + s[1..];
      assert forall i :: 1 <= i < |s| ==> s[1..][i - 1] == s[i];
      [s[0]] + RemoveFirstMatch(s[1..], p)
  }

  /** Removing the element at the first position holding `value` is `RemoveFirst`. */
  lemma {:induction false} RemoveFirstAt<T>(s: seq<T>, value: T, i: nat)
    requires i < |s| && s[i] == value
    requires forall j :: 0 <= j < i ==> s[j] != value
    ensures RemoveFirst(s, value) == s[..i] + s[i + 1..]
  {
    if i > 0 {
      var tail := s[1..];
      assert forall j :: 0 <= j < i - 1 ==> tail[j] == s[j + 1];
      RemoveFirstAt(tail, value, i - 1);
      assert RemoveFirst(s, value) == [s[0]] + RemoveFirst(tail, value);
      assert tail[..i - 1] + tail[i..] == s[1..i] + s[i + 1..];
      assert s[..i] == [s[0]] + s[1..i];
    }
  }

  /** Removing the element at the first position satisfying `p` is
      `RemoveFirstMatch`. */
  lemma {:induction false} RemoveFirstMatchAt<T>(s: seq<T>, p: T -> bool, i: nat)
    requires i < |s| && p(s[i])
    requires forall j :: 0 <= j < i ==> !p(s[j])
    ensures RemoveFirstMatch(s, p) == s[..i] + s[i + 1..]
  {
    if i > 0 {
      RemoveFirstMatchAt(s[1..], p, i - 1);
      assert s[1..][..i - 1] == s[1..i];
      assert s[..i] == [s[0]] + s[1..i];
    }
  }

  /** `find_and_erase(container, value)`: `std::find` scans for the first element
      equal to `value`; if there is one it is erased and the result is true,
      otherwise the container is unchanged and the result is false. */
  method FindAndErase<T(==)>(container: seq<T>, value: T) returns (r: seq<T>, erased: bool)
    ensures erased <==> value in container
    ensures erased ==> exists i ::
              && 0 <= i < |container| && container[i] == value
              && (forall j :: 0 <= j < i ==> container[j] != value)
              && r == container[..i] + container[i + 1..]
    ensures r == RemoveFirst(container, value)
    ensures erased ==> multiset(r) == multiset(container) - multiset{value}
    ensures !erased ==> r == container
  {
    var it := 0;
    while it < |container| && container[it] != value
      invariant it <= |container|
      invariant forall j :: 0 <= j < it ==> container[j] != value
    {
      it := it + 1;
    }
    if it != |container| {
      RemoveFirstAt(container, value, it);
      r, erased := container[..it] + container[it + 1..], true;
      assert container == container[..it] + [value] + container[it + 1..];
    } else {
      r, erased := container, false;
    }
  }

  /** `find_and_erase_if(container, predicate)`: the same with `std::find_if`. */
  method FindAndEraseIf<T>(container: seq<T>, p: T -> bool) returns (r: seq<T>, erased: bool)
    ensures erased <==> exists i :: 0 <= i < |container| && p(container[i])
    ensures erased ==> exists i ::
              && 0 <= i < |container| && p(container[i])
              && (forall j :: 0 <= j < i ==> !p(container[j]))
              && r == container[..i] + container[i + 1..]
    ensures r == RemoveFirstMatch(container, p)
    ensures !erased ==> r == container
    ensures erased ==> |r| == |container| - 1
  {
    var it := 0;
    while it < |container| && !p(container[it])
      invariant it <= |container|
      invariant forall j :: 0 <= j < it ==> !p(container[j])
    {
      it := it + 1;
    }
    if it != |container| {
      RemoveFirstMatchAt(container, p, it);
      r, erased := container[..it] + container[it + 1..], true;
    } else {
      r, erased := container, false;
    }
  }

  /** `find_and_erase_if` with the predicate "equals `value`" is `find_and_erase`. */
  lemma {:induction false} RemoveFirstMatchOfEquality<T>(s: seq<T>, value: T)
    ensures RemoveFirstMatch(s, x => x == value) == RemoveFirst(s, value)
  {
    if |s| > 0 && s[0] != value {
      RemoveFirstMatchOfEquality(s[1..], value);
    }
  }

  /** Erasing the first occurrence of a value that was placed after elements
      different from it gives back the elements around it. */
  lemma {:induction false} RemoveFirstOfInserted<T>(a: seq<T>, value: T, b: seq<T>)
    requires value !in a
    ensures RemoveFirst(a + [value] + b, value) == a + b
  {
    var s := a + [value] + b;
    assert s[|a|] == value;
    assert forall j :: 0 <= j < |a| ==> s[j] == a[j];
    RemoveFirstAt(s, value, |a|);
    assert s[..|a|] == a && s[|a| + 1..] == b;
  }

  // ---------------------------------------------------------------------------
  // binary_find, binary_find_index

  /** What `std::lower_bound` and `binary_find` demand of the range: the elements
      below `value` come first, and the elements above `value` come last. */
  ghost predicate PartitionedFor<T>(less: (T, T) -> bool, s: seq<T>, value: T)
  {
    && (forall i, j :: 0 <= i < j < |s| && less(s[j], value) ==> less(s[i], value))
    && (forall i, j :: 0 <= i < j < |s| && less(value, s[i]) ==> less(value, s[j]))
  }

  /** A range sorted by a strict weak ordering is partitioned for every value. */
  lemma SortedIsPartitioned<T(!new)>(less: (T, T) -> bool, s: seq<T>, value: T)
    requires StrictWeakOrder(less) && Sorted(less, s)
    ensures PartitionedFor(less, s, value)
  {
  }

  /** The halving search of `std::lower_bound` over `[first, first + count)`:
      elements before `first` are below `value`, elements from `first + count` on
      are not. */
  function LowerBoundFrom<T>(less: (T, T) -> bool, s: seq<T>, value: T, first: nat, count: nat): (r: nat)
    requires PartitionedFor(less, s, value)
    requires first + count <= |s|
    requires forall j :: 0 <= j < first ==> less(s[j], value)
    requires forall j :: first + count <= j < |s| ==> !less(s[j], value)
    ensures first <= r <= first + count
    ensures forall j :: 0 <= j < r ==> less(s[j], value)
    ensures forall j :: r <= j < |s| ==> !less(s[j], value)
    decreases count
  {
    if count == 0 then first
    else
      var half := count / 2;
      var mid := first + half;
      if less(s[mid], value) then
        LowerBoundFrom(less, s, value, mid + 1, count - (half + 1))
      else
        LowerBoundFrom(less, s, value, first, half)
  }

  /** `std::lower_bound(first, last, value, comp)` on a whole range: the first
      position whose element is not below `value`. */
  function LowerBound<T>(less: (T, T) -> bool, s: seq<T>, value: T): (r: nat)
    requires PartitionedFor(less, s, value)
    ensures r <= |s|
    ensures forall j :: 0 <= j < r ==> less(s[j], value)
    ensures forall j :: r <= j < |s| ==> !less(s[j], value)
  {
    LowerBoundFrom(less, s, value, 0, |s|)
  }

  /** `binary_find(first, last, value, comp)`: the first position in `[first, last)`
      whose element is equivalent to `value`, or `last` when there is none. */
  function BinaryFind<T>(less: (T, T) -> bool, s: seq<T>, first: nat, last: nat, value: T): (r: nat)
    requires first <= last <= |s|
    requires PartitionedFor(less, s[first..last], value)
    ensures first <= r <= last
    ensures r < last <==> exists j :: first <= j < last && Equivalent(less, s[j], value)
    ensures r < last ==> Equivalent(less, s[r], value)
    ensures r < last ==> forall j :: first <= j < r ==> less(s[j], value)
  {
    var range := s[first..last];
    var lower := LowerBound(less, range, value);
    assert forall j :: first <= j < last ==> s[j] == range[j - first];
    if lower != |range| && !less(value, range[lower]) then first + lower
    else
      assert forall j :: first <= j < last ==> !Equivalent(less, s[j], value) by {
        forall j | first <= j < last
          ensures !Equivalent(less, s[j], value)
        {
          if lower <= j - first {
            assert less(value, range[lower]);
            assert less(value, range[j - first]);
          }
        }
      }
      last
  }

  /** `binary_find_index(first, last, value, comp)`: the distance from `first` to
      what `binary_find` returns — the offset of the first equivalent element, or
      the length of the range when there is none. */
  function BinaryFindIndex<T>(less: (T, T) -> bool, s: seq<T>, first: nat, last: nat, value: T): (r: int)
    requires first <= last <= |s|
    requires PartitionedFor(less, s[first..last], value)
    ensures 0 <= r <= last - first
    ensures r < last - first <==> exists j :: first <= j < last && Equivalent(less, s[j], value)
    ensures r < last - first ==> Equivalent(less, s[first + r], value)
  {
    BinaryFind(less, s, first, last, value) - first
  }

  /** Reference definition: the first position holding an element equivalent to
      `value`, found by a linear scan, or `|s|`. */
  function FirstEquivalent<T>(less: (T, T) -> bool, s: seq<T>, value: T): (r: nat)
    ensures r <= |s|
    ensures r < |s| ==> Equivalent(less, s[r], value)
    ensures forall j :: 0 <= j < r ==> !Equivalent(less, s[j], value)
  {
    if |s| == 0 then 0
    else if Equivalent(less, s[0], value) then 0
    else
      var r := 1 + FirstEquivalent(less, s[1..], value);
      assert forall j :: 1 <= j < r ==> s[j] == s[1..][j - 1];
      r
  }

  /** On a sorted range the binary search finds what a linear scan finds. */
  lemma BinaryFindIsFirstEquivalent<T(!new)>(less: (T, T) -> bool, s: seq<T>, value: T)
    requires StrictWeakOrder(less) && Sorted(less, s)
    ensures PartitionedFor(less, s[0..|s|], value)
    ensures BinaryFind(less, s, 0, |s|, value) == FirstEquivalent(less, s, value)
  {
    assert s[0..|s|] == s;
    SortedIsPartitioned(less, s, value);
  }
}

=== FILE: util.dfy ===
/** Model of include/common/util.h: the 256-entry ASCII lower-casing table with its
    two `to_lower_ascii` overloads, and the null-tolerant C-string helpers
    `is_valid_string` and `get_valid_string`. */
module Util {

  import opened Wrappers

  /** An `unsigned char`. */
  type Byte = x: int | 0 <= x < 256

  /** A plain `char`, taken to be signed (as on MSVC and x86 gcc). */
  type SignedChar = x: int | -128 <= x < 128

  /** `static_cast<unsigned char>` of a signed char: two's complement reinterpretation. */
  function ToUnsigned(c: SignedChar): (b: Byte)
    ensures b % 256 == c % 256
  {
    if c < 0 then c + 256 else c
  }

  /** The conversion back from a byte pattern to a signed `char`. */
  function ToSigned(b: Byte): (c: SignedChar)
    ensures ToUnsigned(c) == b
  {
    if b < 128 then b else b - 256
  }

  /** The ASCII rule the table is meant to encode: 'A'..'Z' become 'a'..'z',
      every other byte (including 0x80..0xFF) is left alone. */
  function LowerRule(b: Byte): Byte
  {
    if 0x41 <= b <= 0x5A then b + 0x20 else b
  }

  /** `s_lower_ascii_table`, as byte patterns (the source spells the entries as `char`
      literals, the letters as 'a'..'z', i.e. 0x61..0x7A). `RowN` holds the sixteen
      entries whose index has high nibble N. */
  const Row0: seq<Byte> := [0x00, 0x01, 0x02, 0x03, 0x04, 0x05, 0x06, 0x07, 0x08, 0x09, 0x0A, 0x0B, 0x0C, 0x0D, 0x0E, 0x0F]
  const Row1: seq<Byte> := [0x10, 0x11, 0x12, 0x13, 0x14, 0x15, 0x16, 0x17, 0x18, 0x19, 0x1A, 0x1B, 0x1C, 0x1D, 0x1E, 0x1F]
  const Row2: seq<Byte> := [0x20, 0x21, 0x22, 0x23, 0x24, 0x25, 0x26, 0x27, 0x28, 0x29, 0x2A, 0x2B, 0x2C, 0x2D, 0x2E, 0x2F]
  const Row3: seq<Byte> := [0x30, 0x31, 0x32, 0x33, 0x34, 0x35, 0x36, 0x37, 0x38, 0x39, 0x3A, 0x3B, 0x3C, 0x3D, 0x3E, 0x3F]
  const Row4: seq<Byte> := [0x40, 0x61, 0x62, 0x63, 0x64, 0x65, 0x66, 0x67, 0x68, 0x69, 0x6A, 0x6B, 0x6C, 0x6D, 0x6E, 0x6F]
  const Row5: seq<Byte> := [0x70, 0x71, 0x72, 0x73, 0x74, 0x75, 0x76, 0x77, 0x78, 0x79, 0x7A, 0x5B, 0x5C, 0x5D, 0x5E, 0x5F]
  const Row6: seq<Byte> := [0x60, 0x61, 0x62, 0x63, 0x64, 0x65, 0x66, 0x67, 0x68, 0x69, 0x6A, 0x6B, 0x6C, 0x6D, 0x6E, 0x6F]
  const Row7: seq<Byte> := [0x70, 0x71, 0x72, 0x73, 0x74, 0x75, 0x76, 0x77, 0x78, 0x79, 0x7A, 0x7B, 0x7C, 0x7D, 0x7E, 0x7F]
  const Row8: seq<Byte> := [0x80, 0x81, 0x82, 0x83, 0x84, 0x85, 0x86, 0x87, 0x88, 0x89, 0x8A, 0x8B, 0x8C, 0x8D, 0x8E, 0x8F]
  const Row9: seq<Byte> := [0x90, 0x91, 0x92, 0x93, 0x94, 0x95, 0x96, 0x97, 0x98, 0x99, 0x9A, 0x9B, 0x9C, 0x9D, 0x9E, 0x9F]
  const RowA: seq<Byte> := [0xA0, 0xA1, 0xA2, 0xA3, 0xA4, 0xA5, 0xA6, 0xA7, 0xA8, 0xA9, 0xAA, 0xAB, 0xAC, 0xAD, 0xAE, 0xAF]
  const RowB: seq<Byte> := [0xB0, 0xB1, 0xB2, 0xB3, 0xB4, 0xB5, 0xB6, 0xB7, 0xB8, 0xB9, 0xBA, 0xBB, 0xBC, 0xBD, 0xBE, 0xBF]
  const RowC: seq<Byte> := [0xC0, 0xC1, 0xC2, 0xC3, 0xC4, 0xC5, 0xC6, 0xC7, 0xC8, 0xC9, 0xCA, 0xCB, 0xCC, 0xCD, 0xCE, 0xCF]
  const RowD: seq<Byte> := [0xD0, 0xD1, 0xD2, 0xD3, 0xD4, 0xD5, 0xD6, 0xD7, 0xD8, 0xD9, 0xDA, 0xDB, 0xDC, 0xDD, 0xDE, 0xDF]
  const RowE: seq<Byte> := [0xE0, 0xE1, 0xE2, 0xE3, 0xE4, 0xE5, 0xE6, 0xE7, 0xE8, 0xE9, 0xEA, 0xEB, 0xEC, 0xED, 0xEE, 0xEF]
  const RowF: seq<Byte> := [0xF0, 0xF1, 0xF2, 0xF3, 0xF4, 0xF5, 0xF6, 0xF7, 0xF8, 0xF9, 0xFA, 0xFB, 0xFC, 0xFD, 0xFE, 0xFF]

  const LowerAsciiTable: seq<Byte> :=
    (((Row0 + Row1) + (Row2 + Row3)) + ((Row4 + Row5) + (Row6 + Row7))) +
    (((Row8 + Row9) + (RowA + RowB)) + ((RowC + RowD) + (RowE + RowF)))

  /** The entries of `row` follow `LowerRule` for the indices starting at `start`. */
  ghost predicate FollowsRule(row: seq<Byte>, start: int)
  {
    && 0 <= start && start + |row| <= 256
    && forall j | 0 <= j < |row| :: row[j] == LowerRule(start + j)
  }

  lemma AppendFollowsRule(a: seq<Byte>, b: seq<Byte>, start: int)
    requires FollowsRule(a, start) && FollowsRule(b, start + |a|)
    ensures FollowsRule(a + b, start)
  {
    forall j | 0 <= j < |a + b|
      ensures (a + b)[j] == LowerRule(start + j)
    {
      if j < |a| {
        assert (a + b)[j] == a[j];
      } else {
        assert (a + b)[j] == b[j - |a|];
      }
    }
  }

  /** The table entries 0x00..0x3F follow the ASCII rule. */
  lemma Quarter0FollowsRule()
    ensures FollowsRule((Row0 + Row1) + (Row2 + Row3), 0x00)
  {
    assert FollowsRule(Row0, 0x00);
    assert FollowsRule(Row1, 0x10);
    assert FollowsRule(Row2, 0x20);
    assert FollowsRule(Row3, 0x30);
    AppendFollowsRule(Row0, Row1, 0x00);
    AppendFollowsRule(Row2, Row3, 0x20);
    AppendFollowsRule(Row0 + Row1, Row2 + Row3, 0x00);
  }

  /** The table entries 0x40..0x7F follow the ASCII rule. */
  lemma Quarter1FollowsRule()
    ensures FollowsRule((Row4 + Row5) + (Row6 + Row7), 0x40)
  {
    assert FollowsRule(Row4, 0x40);
    assert FollowsRule(Row5, 0x50);
    assert FollowsRule(Row6, 0x60);
    assert FollowsRule(Row7, 0x70);
    AppendFollowsRule(Row4, Row5, 0x40);
    AppendFollowsRule(Row6, Row7, 0x60);
    AppendFollowsRule(Row4 + Row5, Row6 + Row7, 0x40);
  }

  /** The table entries 0x80..0xBF follow the ASCII rule. */
  lemma Quarter2FollowsRule()
    ensures FollowsRule((Row8 + Row9) + (RowA + RowB), 0x80)
  {
    assert FollowsRule(Row8, 0x80);
    assert FollowsRule(Row9, 0x90);
    assert FollowsRule(RowA, 0xA0);
    assert FollowsRule(RowB, 0xB0);
    AppendFollowsRule(Row8, Row9, 0x80);
    AppendFollowsRule(RowA, RowB, 0xA0);
    AppendFollowsRule(Row8 + Row9, RowA + RowB, 0x80);
  }

  /** The table entries 0xC0..0xFF follow the ASCII rule. */
  lemma Quarter3FollowsRule()
    ensures FollowsRule((RowC + RowD) + (RowE + RowF), 0xC0)
  {
    assert FollowsRule(RowC, 0xC0);
    assert FollowsRule(RowD, 0xD0);
    assert FollowsRule(RowE, 0xE0);
    assert FollowsRule(RowF, 0xF0);
    AppendFollowsRule(RowC, RowD, 0xC0);
    AppendFollowsRule(RowE, RowF, 0xE0);
    AppendFollowsRule(RowC + RowD, RowE + RowF, 0xC0);
  }

  /** The table entries 0x00..0x7F follow the ASCII rule. */
  lemma LowerHalfFollowsRule()
    ensures FollowsRule((((Row0 + Row1) + (Row2 + Row3)) + ((Row4 + Row5) + (Row6 + Row7))), 0x00)
  {
    Quarter0FollowsRule();
    Quarter1FollowsRule();
    AppendFollowsRule(((Row0 + Row1) + (Row2 + Row3)), ((Row4 + Row5) + (Row6 + Row7)), 0x00);
  }

  /** The table entries 0x80..0xFF follow the ASCII rule. */
  lemma UpperHalfFollowsRule()
    ensures FollowsRule((((Row8 + Row9) + (RowA + RowB)) + ((RowC + RowD) + (RowE + RowF))), 0x80)
  {
    Quarter2FollowsRule();
    Quarter3FollowsRule();
    AppendFollowsRule(((Row8 + Row9) + (RowA + RowB)), ((RowC + RowD) + (RowE + RowF)), 0x80);
  }

  /** Every entry of the table is what the ASCII rule prescribes. */
  lemma LowerAsciiTableFollowsRule()
    ensures |LowerAsciiTable| == 256
    ensures FollowsRule(LowerAsciiTable, 0)
  {
    LowerHalfFollowsRule();
    UpperHalfFollowsRule();
    AppendFollowsRule((((Row0 + Row1) + (Row2 + Row3)) + ((Row4 + Row5) + (Row6 + Row7))), (((Row8 + Row9) + (RowA + RowB)) + ((RowC + RowD) + (RowE + RowF))), 0x00);
  }

  /** `to_lower_ascii(unsigned char)`: index the table with the byte and cast the
      entry back to `unsigned char`. */
  function ToLowerAscii(ch: Byte): (r: Byte)
    ensures r == LowerRule(ch)
    ensures 0x41 <= ch <= 0x5A ==> r == ch + 0x20
    ensures !(0x41 <= ch <= 0x5A) ==> r == ch
  {
    LowerAsciiTableFollowsRule();
    LowerAsciiTable[ch]
  }

  /** `to_lower_ascii(char)`: the signed character is cast to `unsigned char` before it
      indexes the table, so negative characters reach the entries 0x80..0xFF; the
      entry is returned as a `char`. */
  function ToLowerAsciiChar(ch: SignedChar): (r: SignedChar)
    ensures ToUnsigned(r) == ToLowerAscii(ToUnsigned(ch))
    ensures 0x41 <= ch <= 0x5A ==> r == ch + 0x20
    ensures !(0x41 <= ch <= 0x5A) ==> r == ch
  {
    LowerAsciiTableFollowsRule();
    ToSigned(LowerAsciiTable[ToUnsigned(ch)])
  }

  /** Lower-casing twice is lower-casing once, and no upper-case letter survives. */
  lemma ToLowerAsciiIdempotent(ch: Byte)
    ensures ToLowerAscii(ToLowerAscii(ch)) == ToLowerAscii(ch)
    ensures !(0x41 <= ToLowerAscii(ch) <= 0x5A)
  {
  }

  /** A pointer to a NUL-terminated string: `None` is the null pointer, `Some(s)` holds
      the characters stored before the terminating NUL. */
  type CString = Option<seq<char>>

  /** `*str` for a non-null pointer: the first character, or the terminator itself
      when the string is empty. */
  function FirstChar(s: seq<char>): char
  {
    if |s| == 0 then '\0' else s[0]
  }

  /** `is_valid_string`: the pointer is non-null and does not point at the terminator. */
  predicate IsValidString(str: CString)
  {
    str.Some? && FirstChar(str.value) != '\0'
  }

  /** `get_valid_string` (both the `char` and the `wchar_t` overload): a null pointer
      is replaced by the empty literal. */
  function GetValidString(str: CString): seq<char>
  {
    match str
    case None => ""
    case Some(s) => s
  }

  /** For a well-formed string (no NUL before the terminator), validity is exactly
      "non-null and non-empty"; null and "" are the two invalid inputs. */
  lemma IsValidStringIffNonEmpty(str: CString)
    requires str.Some? ==> '\0' !in str.value
    ensures IsValidString(str) <==> str.Some? && |str.value| > 0
    ensures !IsValidString(None) && !IsValidString(Some(""))
  {
  }

  /** `get_valid_string` turns the null pointer into the empty string, keeps every
      non-null string as it is, preserves validity in both directions, and applying
      it again changes nothing. */
  lemma GetValidStringProperties(str: CString)
    ensures str.None? ==> GetValidString(str) == "" && !IsValidString(Some(GetValidString(str)))
    ensures str.Some? ==> GetValidString(str) == str.value
    ensures IsValidString(Some(GetValidString(str))) <==> IsValidString(str)
    ensures GetValidString(Some(GetValidString(str))) == GetValidString(str)
  {
  }
}

=== FILE: vector_map.dfy ===
/** Model of include/common/vector_map.h: a map with unique keys stored as (key, value)
    entries in a vector kept sorted by key, searched by a hand-written binary search.

    The state is the comparator together with the entry sequence; every operation is a
    pure function from the old state to the new one. Positions (the source's iterators)
    are indices into the entries, and `|entries|` plays the role of `end()`. */
module VectorMap {

  import opened Wrappers
  import opened Ordering
  import opened KeySort

  /** `vector_map<K, V, T>`: the comparator `T` (held as an empty base class in the
      source) and the entry vector `m_entries`. */
  datatype Map<!K, V> = Map(less: (K, K) -> bool, entries: seq<(K, V)>)

  /** A strict weak ordering and entries sorted by key, possibly with equivalent keys
      side by side: what the range constructors leave behind, and all that the binary
      search relies on. */
  ghost predicate Ordered<K(!new), V>(m: Map<K, V>)
  {
    StrictWeakOrder(m.less) && SortedByKey(m.less, m.entries)
  }

  /** The representation invariant: ordered, and with strictly ascending keys, so no
      two entries have equivalent keys. */
  ghost predicate Valid<K(!new), V>(m: Map<K, V>)
  {
    Ordered(m) && Ascending(m.less, m.entries)
  }

  /** Some entry's key is equivalent to `key` under the map's comparator. */
  ghost predicate Contains<K, V>(m: Map<K, V>, key: K)
  {
    HasKey(m.less, m.entries, key)
  }

  /** `size()`. */
  function Size<K, V>(m: Map<K, V>): nat
  {
    |m.entries|
  }

  /** In a valid map at most one entry is equivalent to a given key. */
  lemma EquivalentEntryUnique<K(!new), V>(m: Map<K, V>, key: K, i: nat, j: nat)
    requires Valid(m)
    requires i < |m.entries| && j < |m.entries|
    requires Equivalent(m.less, m.entries[i].0, key)
    requires Equivalent(m.less, m.entries[j].0, key)
    ensures i == j
  {
  }

  // ---------------------------------------------------------------------------
  // Construction

  /** The default and the comparator constructors: no entries. */
  function Empty<K(!new), V>(less: (K, K) -> bool): (r: Map<K, V>)
    requires StrictWeakOrder(less)
    ensures Valid(r) && r.less == less
    ensures forall key :: !Contains(r, key)
  {
    Map(less, [])
  }

  /** The range constructors: append the input, then one `std::sort` by key. The
      result is a sorted permutation of the input; duplicate keys are NOT removed, so
      the result is a valid map exactly when the input keys are distinct. */
  function FromRange<K(!new), V>(less: (K, K) -> bool, input: seq<(K, V)>): (r: Map<K, V>)
    requires StrictWeakOrder(less)
    ensures r.less == less
    ensures |r.entries| == |input|
    ensures multiset(r.entries) == multiset(input)
    ensures Ordered(r)
    ensures Valid(r) <==> KeysDistinct(less, input)
  {
    var sorted := SortByKey(less, input);
    assert KeysDistinct(less, input) ==> Ascending(less, sorted) by {
      if KeysDistinct(less, input) {
        SortKeepsDistinct(less, input);
        AscendingIffSortedAndDistinct(less, sorted);
      }
    }
    assert Ascending(less, sorted) ==> KeysDistinct(less, input) by {
      if Ascending(less, sorted) {
        AscendingPermutationKeysDistinct(less, sorted, input);
      }
    }
    Map(less, sorted)
  }

  /** `SwapElementsWithVector`: the map takes over the caller's vector and sorts it by
      key; the caller receives the previous entries. */
  function SwapElementsWithVector<K(!new), V>(m: Map<K, V>, elements: seq<(K, V)>): (r: (Map<K, V>, seq<(K, V)>))
    requires StrictWeakOrder(m.less)
    ensures r.0.less == m.less
    ensures r.1 == m.entries
    ensures multiset(r.0.entries) == multiset(elements)
    ensures Ordered(r.0)
    ensures Valid(r.0) <==> KeysDistinct(m.less, elements)
  {
    (FromRange(m.less, elements), m.entries)
  }

  // ---------------------------------------------------------------------------
  // Search

  /** The halving loop of `lower_bound` as a recursion over its variables `first` and
      `count`: entries before `first` are below `key`, entries from `first + count` up
      to `limit` are not, and `count` strictly decreases. */
  function Search<K(!new), V>(less: (K, K) -> bool, e: seq<(K, V)>, key: K, first: nat, count: nat, limit: nat): (r: nat)
    requires StrictWeakOrder(less) && SortedByKey(less, e)
    requires first + count <= limit <= |e|
    requires forall j :: 0 <= j < first ==> less(e[j].0, key)
    requires forall j :: first + count <= j < limit ==> !less(e[j].0, key)
    ensures first <= r <= first + count
    ensures forall j :: 0 <= j < r ==> less(e[j].0, key)
    ensures forall j :: r <= j < limit ==> !less(e[j].0, key)
    decreases count
  {
    if count == 0 then first
    else
      var half := count / 2;
      var mid := first + half;
      if less(e[mid].0, key) then
        Search(less, e, key, mid + 1, count - (half + 1), limit)
      else
        Search(less, e, key, first, half, limit)
  }

  /** Below `limit` there is only one position splitting the entries into those below
      `key` and those not below it. */
  lemma BoundaryUnique<K, V>(less: (K, K) -> bool, e: seq<(K, V)>, key: K, a: nat, b: nat, limit: nat)
    requires a <= limit && b <= limit && limit <= |e|
    requires forall j :: 0 <= j < a ==> less(e[j].0, key)
    requires forall j :: a <= j < limit ==> !less(e[j].0, key)
    requires forall j :: 0 <= j < b ==> less(e[j].0, key)
    requires forall j :: b <= j < limit ==> !less(e[j].0, key)
    ensures a == b
  {
    // The entry at the smaller of the two positions would be both below and not
    // below `key` unless they coincide; naming it lets the two sides meet.
    var lower := if a < b then a else b;
    if lower < limit {
      var pivot := e[lower].0;
    }
  }

  /** `lower_bound(key)`: the first position whose key is not below `key`. Every
      entry before it is below `key`, none from it on is. */
  function LowerBound<K(!new), V>(m: Map<K, V>, key: K): (r: nat)
    requires Ordered(m)
    ensures r <= |m.entries|
    ensures forall j :: 0 <= j < r ==> m.less(m.entries[j].0, key)
    ensures forall j :: r <= j < |m.entries| ==> !m.less(m.entries[j].0, key)
  {
    Search(m.less, m.entries, key, 0, |m.entries|, |m.entries|)
  }

  /** `int count = m_entries.size();`: the size narrowed to a two's-complement 32-bit
      `int`. */
  function ToInt32(n: nat): (r: int)
    ensures -0x8000_0000 <= r < 0x8000_0000
    ensures (r - n) % 0x1_0000_0000 == 0
    ensures n < 0x8000_0000 ==> r == n
  {
    var w := n % 0x1_0000_0000;
    if w < 0x8000_0000 then w else w - 0x1_0000_0000
  }

  /** How many entries the loop of `lower_bound` actually searches: the narrowed size,
      or none when it is negative. */
  function SearchedPrefix(n: nat): (r: nat)
    ensures r <= n
    ensures n < 0x8000_0000 ==> r == n
  {
    var count := ToInt32(n);
    if count > 0 then count else 0
  }

  /** `lower_bound(key)` as written, with its `int` count: only the first
      `SearchedPrefix(size)` entries are searched. For sizes below 2^31 this is the
      lower bound; from 2^31 on it is the lower bound of a prefix (possibly empty). */
  function LowerBoundAsWritten<K(!new), V>(m: Map<K, V>, key: K): (r: nat)
    requires Ordered(m)
    ensures r <= SearchedPrefix(|m.entries|)
    ensures forall j :: 0 <= j < r ==> m.less(m.entries[j].0, key)
    ensures forall j :: r <= j < SearchedPrefix(|m.entries|) ==> !m.less(m.entries[j].0, key)
    ensures |m.entries| < 0x8000_0000 ==> r == LowerBound(m, key)
  {
    var searched := SearchedPrefix(|m.entries|);
    Search(m.less, m.entries, key, 0, searched, searched)
  }

  /** The loop of `lower_bound` itself, statement by statement: `first` and the signed
      `count` are the loop variables, `count / 2` the half that is skipped. */
  method LowerBoundLoop<K(!new), V>(m: Map<K, V>, key: K) returns (first: nat)
    requires Ordered(m)
    ensures first <= SearchedPrefix(|m.entries|)
    ensures forall j :: 0 <= j < first ==> m.less(m.entries[j].0, key)
    ensures forall j :: first <= j < SearchedPrefix(|m.entries|) ==> !m.less(m.entries[j].0, key)
    ensures |m.entries| < 0x8000_0000 ==> first == LowerBound(m, key)
  {
    var count: int := ToInt32(|m.entries|);
    ghost var searched := SearchedPrefix(|m.entries|);
    first := 0;
    while 0 < count
      invariant first + (if count > 0 then count else 0) <= searched
      invariant forall j :: 0 <= j < first ==> m.less(m.entries[j].0, key)
      invariant forall j :: first + (if count > 0 then count else 0) <= j < searched ==> !m.less(m.entries[j].0, key)
      decreases count
    {
      var count2 := count / 2;
      var mid := first + count2;
      if m.less(m.entries[mid].0, key) {
        first := mid + 1;
        count := count - (count2 + 1);
      } else {
        count := count2;
      }
    }
    if |m.entries| < 0x8000_0000 {
      BoundaryUnique(m.less, m.entries, key, first, LowerBound(m, key), |m.entries|);
    }
  }

  /** `find(key)`: the position of the first entry whose key is equivalent to `key`
      (in a valid map the only one), or `end()` when there is none. */
  function Find<K(!new), V>(m: Map<K, V>, key: K): (r: nat)
    requires Ordered(m)
    ensures r <= |m.entries|
    ensures r < |m.entries| <==> Contains(m, key)
    ensures r < |m.entries| ==> Equivalent(m.less, m.entries[r].0, key)
    ensures r < |m.entries| ==> forall j :: 0 <= j < r ==> m.less(m.entries[j].0, key)
  {
    var it := LowerBound(m, key);
    if it != |m.entries| && m.less(key, m.entries[it].0) then |m.entries| else it
  }

  /** `find(key)` on top of `lower_bound` as written. Whatever it returns is either
      `end()` or an entry whose key is not above `key`; below 2^31 entries it is
      `find`. */
  function FindAsWritten<K(!new), V>(m: Map<K, V>, key: K): (r: nat)
    requires Ordered(m)
    ensures r <= |m.entries|
    ensures r < |m.entries| ==> !m.less(key, m.entries[r].0)
    ensures |m.entries| < 0x8000_0000 ==> r == Find(m, key)
  {
    var it := LowerBoundAsWritten(m, key);
    if it != |m.entries| && m.less(key, m.entries[it].0) then |m.entries| else it
  }

  /** `count(key)`: 1 when the key is present, else 0 (keys are unique). */
  function Count<K(!new), V>(m: Map<K, V>, key: K): (r: nat)
    requires Valid(m)
    ensures r <= 1
    ensures r == 1 <==> Contains(m, key)
  {
    if Find(m, key) < |m.entries| then 1 else 0
  }

  /** `upper_bound(key)`: the first position whose key is above `key` — the lower
      bound, advanced past the entry there when that entry is equivalent to `key`. */
  function UpperBound<K(!new), V>(m: Map<K, V>, key: K): (r: nat)
    requires Valid(m)
    ensures r <= |m.entries|
    ensures forall j :: 0 <= j < r ==> !m.less(key, m.entries[j].0)
    ensures forall j :: r <= j < |m.entries| ==> m.less(key, m.entries[j].0)
  {
    var upper := LowerBound(m, key);
    if upper != |m.entries| && !m.less(key, m.entries[upper].0) then upper + 1 else upper
  }

  /** `equal_range(key)`: the one-entry range of the matching entry, or `(end, end)`
      when the key is absent (not the empty range at the lower bound). */
  function EqualRange<K(!new), V>(m: Map<K, V>, key: K): (r: (nat, nat))
    requires Valid(m)
    ensures Contains(m, key) ==> r.0 < |m.entries| && r.1 == r.0 + 1 && Equivalent(m.less, m.entries[r.0].0, key)
    ensures !Contains(m, key) ==> r.0 == |m.entries| && r.1 == |m.entries|
  {
    var lower := Find(m, key);
    var upper := if lower != |m.entries| then lower + 1 else lower;
    (lower, upper)
  }

  /** The value stored under `key`, if any: the map as a partial function, read
      through `find`. */
  function Lookup<K(!new), V>(m: Map<K, V>, key: K): (r: Option<V>)
    requires Valid(m)
    ensures r.Some? <==> Contains(m, key)
    ensures forall i :: 0 <= i < |m.entries| && Equivalent(m.less, m.entries[i].0, key) ==> r == Some(m.entries[i].1)
  {
    var i := Find(m, key);
    if i < |m.entries| then
      assert forall j :: 0 <= j < |m.entries| && Equivalent(m.less, m.entries[j].0, key) ==> j == i by {
        forall j | 0 <= j < |m.entries| && Equivalent(m.less, m.entries[j].0, key)
          ensures j == i
        {
          EquivalentEntryUnique(m, key, i, j);
        }
      }
      Some(m.entries[i].1)
    else
      None
  }

  /** `empty()`: no entries, equivalently no key is present. */
  predicate IsEmpty<K(!new), V>(m: Map<K, V>)
    requires Valid(m)
    ensures IsEmpty(m) <==> Size(m) == 0
    ensures IsEmpty(m) <==> forall key :: !Contains(m, key)
  {
    assert |m.entries| > 0 ==> Contains(m, m.entries[0].0);
    |m.entries| == 0
  }

  // ---------------------------------------------------------------------------
  // Insertion

  /** What `insert` hands back: the new state, the position of the entry for the key
      and whether an insertion was made. */
  datatype InsertResult<!K, V> = InsertResult(after: Map<K, V>, pos: nat, inserted: bool)

  /** Placing an entry at its lower bound, when the entry there (if any) has a key
      above it, keeps the keys strictly ascending. */
  lemma InsertAtLowerBoundKeepsAscending<K(!new), V>(m: Map<K, V>, entry: (K, V), it: nat)
    requires Valid(m)
    requires it == LowerBound(m, entry.0)
    requires it == |m.entries| || m.less(entry.0, m.entries[it].0)
    ensures Ascending(m.less, m.entries[..it] + [entry] + m.entries[it..])
  {
    var e' := m.entries[..it] + [entry] + m.entries[it..];
    forall i, j | 0 <= i < j < |e'|
      ensures m.less(e'[i].0, e'[j].0)
    {
      if j == it {
        assert e'[i] == m.entries[i];
      } else if i == it {
        assert e'[j] == m.entries[j - 1];
        if j - 1 > it {
          assert m.less(m.entries[it].0, m.entries[j - 1].0);
        }
      } else if i < it {
        assert e'[i] == m.entries[i];
        assert e'[j] == m.entries[if j < it then j else j - 1];
      } else {
        assert e'[i] == m.entries[i - 1];
        assert e'[j] == m.entries[j - 1];
      }
    }
  }

  /** `insert(val)`: an absent key is placed at its lower bound; a present key leaves
      the map unchanged (the old value is kept) and reports the existing position. */
  function Insert<K(!new), V>(m: Map<K, V>, entry: (K, V)): (r: InsertResult<K, V>)
    requires Valid(m)
    ensures Valid(r.after) && r.after.less == m.less
    ensures r.inserted <==> !Contains(m, entry.0)
    ensures r.pos < |r.after.entries| && Equivalent(m.less, r.after.entries[r.pos].0, entry.0)
    ensures r.inserted ==> r.pos == LowerBound(m, entry.0)
    ensures r.inserted ==> r.after.entries == m.entries[..r.pos] + [entry] + m.entries[r.pos..]
    ensures !r.inserted ==> r.after.entries == m.entries && r.pos == Find(m, entry.0)
  {
    var it := LowerBound(m, entry.0);
    if it == |m.entries| || m.less(entry.0, m.entries[it].0) then
      var e' := m.entries[..it] + [entry] + m.entries[it..];
      InsertAtLowerBoundKeepsAscending(m, entry, it);
      InsertResult(Map(m.less, e'), it, true)
    else
      InsertResult(m, it, false)
  }

  /** `insert(where, val)`: the hint is ignored and the position of the entry for the
      key is returned. */
  function InsertHinted<K(!new), V>(m: Map<K, V>, hint: nat, entry: (K, V)): (r: (Map<K, V>, nat))
    requires Valid(m)
    ensures Valid(r.0) && r.0.less == m.less
    ensures r.1 < |r.0.entries| && Equivalent(m.less, r.0.entries[r.1].0, entry.0)
    ensures Contains(m, entry.0) ==> r.0.entries == m.entries && r.1 == Find(m, entry.0)
    ensures !Contains(m, entry.0) ==> r.1 == LowerBound(m, entry.0)
    ensures !Contains(m, entry.0) ==> r.0.entries == m.entries[..r.1] + [entry] + m.entries[r.1..]
    ensures !Contains(m, entry.0) ==> |r.0.entries| == |m.entries| + 1 && r.0.entries[r.1] == entry
  {
    var res := Insert(m, entry);
    (res.after, res.pos)
  }

  /** `insert(first, last)`: single `insert` of every element in input order, so for
      a key that occurs several times the first occurrence wins. */
  function InsertRange<K(!new), V>(m: Map<K, V>, input: seq<(K, V)>): (r: Map<K, V>)
    requires Valid(m)
    ensures Valid(r) && r.less == m.less
    ensures |m.entries| <= |r.entries| <= |m.entries| + |input|
    decreases |input|
  {
    if |input| == 0 then m
    else InsertRange(Insert(m, input[0]).after, input[1..])
  }

  /** What `operator[]` hands back: the new state and the position whose value the
      returned reference designates. */
  datatype Slot<!K, V> = Slot(after: Map<K, V>, pos: nat)

  /** `operator[](key)`: a present key yields its entry and changes nothing; an absent
      key is inserted with the default value `mapped_type()` at its lower bound. */
  function Subscript<K(!new), V>(m: Map<K, V>, key: K, default: V): (r: Slot<K, V>)
    requires Valid(m)
    ensures Valid(r.after) && r.after.less == m.less
    ensures r.pos < |r.after.entries| && Equivalent(m.less, r.after.entries[r.pos].0, key)
    ensures Contains(m, key) ==> r.after.entries == m.entries && r.pos == Find(m, key)
    ensures !Contains(m, key) ==> r.pos <= |m.entries| && r.after.entries == m.entries[..r.pos] + [(key, default)] + m.entries[r.pos..]
    ensures !Contains(m, key) ==> r.after.entries[r.pos].1 == default
  {
    var it := Find(m, key);
    if it == |m.entries| then
      var res := Insert(m, (key, default));
      Slot(res.after, res.pos)
    else
      Slot(m, it)
  }

  // ---------------------------------------------------------------------------
  // Removal

  /** What the position-taking `erase` overloads hand back: the new state and the
      position following the removed entries. */
  datatype EraseResult<!K, V> = EraseResult(after: Map<K, V>, pos: nat)

  /** `erase(where)` for a dereferenceable position: the entry there goes, the later
      entries move down by one, and the returned position designates what followed. */
  function ErasePos<K(!new), V>(m: Map<K, V>, where: nat): (r: EraseResult<K, V>)
    requires Ordered(m)
    requires where < |m.entries|
    ensures Ordered(r.after) && r.after.less == m.less
    ensures Valid(m) ==> Valid(r.after) && !Contains(r.after, m.entries[where].0)
    ensures |r.after.entries| == |m.entries| - 1
    ensures forall j :: 0 <= j < where ==> r.after.entries[j] == m.entries[j]
    ensures forall j :: where <= j < |r.after.entries| ==> r.after.entries[j] == m.entries[j + 1]
    ensures r.pos == where
  {
    var e' := m.entries[..where] + m.entries[where + 1..];
    assert forall j :: 0 <= j < |e'| ==> e'[j] == m.entries[if j < where then j else j + 1];
    EraseResult(Map(m.less, e'), where)
  }

  /** `erase(first, last)`: the entries in `[first, last)` go; the returned position
      designates what followed them. */
  function EraseRange<K(!new), V>(m: Map<K, V>, first: nat, last: nat): (r: EraseResult<K, V>)
    requires Valid(m)
    requires first <= last <= |m.entries|
    ensures Valid(r.after) && r.after.less == m.less
    ensures |r.after.entries| == |m.entries| - (last - first)
    ensures forall j :: 0 <= j < first ==> r.after.entries[j] == m.entries[j]
    ensures forall j :: first <= j < |r.after.entries| ==> r.after.entries[j] == m.entries[j + (last - first)]
    ensures forall j :: first <= j < last ==> !Contains(r.after, m.entries[j].0)
    ensures r.pos == first
  {
    var e' := m.entries[..first] + m.entries[last..];
    assert forall j :: 0 <= j < |e'| ==> e'[j] == m.entries[if j < first then j else j + (last - first)];
    EraseResult(Map(m.less, e'), first)
  }

  /** `erase(key)`: removes the entry `find(key)` designates, if any; otherwise
      nothing changes. In a valid map that is the only entry for `key`; in a map with
      equivalent keys side by side, the later ones stay. */
  function EraseKey<K(!new), V>(m: Map<K, V>, key: K): (r: Map<K, V>)
    requires Ordered(m)
    ensures Ordered(r) && r.less == m.less
    ensures Valid(m) ==> Valid(r) && !Contains(r, key)
    ensures !Contains(m, key) ==> r.entries == m.entries
    ensures Contains(m, key) ==> |r.entries| == |m.entries| - 1
    ensures Contains(m, key) ==> r.entries == m.entries[..Find(m, key)] + m.entries[Find(m, key) + 1..]
    ensures forall j :: 0 <= j < |m.entries| && !Equivalent(m.less, m.entries[j].0, key) ==> m.entries[j] in r.entries
  {
    var where := Find(m, key);
    if where != |m.entries| then
      var res := ErasePos(m, where);
      assert forall j :: 0 <= j < |m.entries| && j != where ==> m.entries[j] in res.after.entries by {
        forall j | 0 <= j < |m.entries| && j != where
          ensures m.entries[j] in res.after.entries
        {
          if j < where {
            assert res.after.entries[j] == m.entries[j];
          } else {
            assert res.after.entries[j - 1] == m.entries[j];
          }
        }
      }
      res.after
    else
      m
  }

  /** `std::remove_if`: the entries failing `p`, in their original order. */
  function RemoveIf<T>(s: seq<T>, p: T -> bool): (r: seq<T>)
    ensures |r| <= |s|
    ensures forall j :: 0 <= j < |r| ==> r[j] in s && !p(r[j])
    ensures forall j :: 0 <= j < |s| && !p(s[j]) ==> s[j] in r
    ensures multiset(r) <= multiset(s)
  {
    if |s| == 0 then []
    else if p(s[0]) then
      assert s == [s[0]] + s[1..];
      RemoveIf(s[1..], p)
    else
      assert s == [s[0]] + s[1..];
      [s[0]] + RemoveIf(s[1..], p)
  }

  /** Removing entries from strictly ascending entries keeps them strictly ascending. */
  lemma {:induction false} RemoveIfKeepsAscending<K, V>(less: (K, K) -> bool, s: seq<(K, V)>, p: ((K, V)) -> bool)
    requires Ascending(less, s)
    ensures Ascending(less, RemoveIf(s, p))
  {
    if |s| > 0 {
      RemoveIfKeepsAscending(less, s[1..], p);
      var t := RemoveIf(s[1..], p);
      forall j | 0 <= j < |t|
        ensures less(s[0].0, t[j].0)
      {
        assert t[j] in s[1..];
      }
    }
  }

  /** `erase_if(p)`: `remove_if` then `std::sort`. Because `remove_if` keeps the
      survivors in order, the sort finds them already sorted and changes nothing: the
      result is exactly the entries failing `p`, in their original order. */
  function EraseIf<K(!new), V>(m: Map<K, V>, p: ((K, V)) -> bool): (r: Map<K, V>)
    requires Valid(m)
    ensures Valid(r) && r.less == m.less
    ensures r.entries == RemoveIf(m.entries, p)
    ensures forall j :: 0 <= j < |r.entries| ==> r.entries[j] in m.entries && !p(r.entries[j])
    ensures forall j :: 0 <= j < |m.entries| && !p(m.entries[j]) ==> m.entries[j] in r.entries
  {
    var kept := RemoveIf(m.entries, p);
    RemoveIfKeepsAscending(m.less, m.entries, p);
    SortAscendingIsIdentity(m.less, kept);
    Map(m.less, SortByKey(m.less, kept))
  }

  // ---------------------------------------------------------------------------
  // Whole-container operations

  /** `clear()`: no entries are left; the comparator stays. */
  function Clear<K(!new), V>(m: Map<K, V>): (r: Map<K, V>)
    requires Valid(m)
    ensures Valid(r) && r.less == m.less
    ensures Size(r) == 0
    ensures forall key :: !Contains(r, key)
  {
    Map(m.less, [])
  }

  /** `swap(other)`: the two maps exchange both their entries and their comparators,
      so each stays valid. */
  function Swap<K(!new), V>(a: Map<K, V>, b: Map<K, V>): (r: (Map<K, V>, Map<K, V>))
    requires Valid(a) && Valid(b)
    ensures Valid(r.0) && Valid(r.1)
    ensures r.0.entries == b.entries && r.1.entries == a.entries
    ensures r.0.less == b.less && r.1.less == a.less
    ensures forall key :: (Contains(r.0, key) <==> Contains(b, key)) && (Contains(r.1, key) <==> Contains(a, key))
  {
    (b, a)
  }
}

=== FILE: vector_map_props.dfy ===
/** Properties of include/common/vector_map.h that relate several operations: what a
    lookup sees after each mutation, the round trips between insertion and erasure,
    the two ways of building a map from a range, and the `int` narrowing of
    `lower_bound`. */
module VectorMapProperties {

  import opened Wrappers
  import opened Ordering
  import opened KeySort
  import opened VectorMap

  /** The value of the first entry of `s` whose key is equivalent to `key`. */
  function FirstValue<K, V>(less: (K, K) -> bool, s: seq<(K, V)>, key: K): Option<V>
  {
    if |s| == 0 then None
    else if Equivalent(less, s[0].0, key) then Some(s[0].1)
    else FirstValue(less, s[1..], key)
  }

  // ---------------------------------------------------------------------------
  // Lookups after a mutation

  /** The value `Lookup` reports for a key is the value of any stored entry whose key
      is equivalent to it. */
  lemma LookupOfMember<K(!new), V>(m: Map<K, V>, x: (K, V), key: K)
    requires Valid(m)
    requires x in m.entries && Equivalent(m.less, x.0, key)
    ensures Lookup(m, key) == Some(x.1)
  {
    var i :| 0 <= i < |m.entries| && m.entries[i] == x;
  }

  /** The entries after `insert(entry)` are the old ones, plus `entry` when its key was
      absent. */
  lemma InsertMembers<K(!new), V>(m: Map<K, V>, entry: (K, V))
    requires Valid(m)
    ensures forall j :: 0 <= j < |m.entries| ==> m.entries[j] in Insert(m, entry).after.entries
    ensures forall j :: 0 <= j < |Insert(m, entry).after.entries| ==>
              Insert(m, entry).after.entries[j] in m.entries || Insert(m, entry).after.entries[j] == entry
    ensures !Contains(m, entry.0) ==> entry in Insert(m, entry).after.entries
  {
    var r := Insert(m, entry);
    if r.inserted {
      var e, p := m.entries, r.pos;
      assert r.after.entries == e[..p] + [entry] + e[p..];
      assert e == e[..p] + e[p..];
    }
  }

  /** After `insert(entry)` a key present before keeps its value, the inserted key
      maps to the new value only if it was absent, and every other key is
      unaffected. */
  lemma InsertLookup<K(!new), V>(m: Map<K, V>, entry: (K, V), key: K)
    requires Valid(m)
    ensures Lookup(Insert(m, entry).after, key)
         == if Contains(m, key) then Lookup(m, key)
            else if Equivalent(m.less, key, entry.0) then Some(entry.1)
            else None
  {
    var after := Insert(m, entry).after;
    InsertMembers(m, entry);
    if Contains(m, key) {
      var i :| 0 <= i < |m.entries| && Equivalent(m.less, m.entries[i].0, key);
      LookupOfMember(m, m.entries[i], key);
      LookupOfMember(after, m.entries[i], key);
    } else if Equivalent(m.less, key, entry.0) {
      LookupOfMember(after, entry, key);
    } else {
      forall j | 0 <= j < |after.entries|
        ensures !Equivalent(m.less, after.entries[j].0, key)
      {
        if after.entries[j] in m.entries {
          var i :| 0 <= i < |m.entries| && m.entries[i] == after.entries[j];
        }
      }
    }
  }

  /** Inserting a second value under a key does not replace the first. */
  lemma InsertTwiceKeepsFirst<K(!new), V>(m: Map<K, V>, key: K, v1: V, v2: V)
    requires Valid(m)
    requires !Contains(m, key)
    ensures Lookup(Insert(Insert(m, (key, v1)).after, (key, v2)).after, key) == Some(v1)
  {
    var m1 := Insert(m, (key, v1)).after;
    EquivalentProperties(m.less, key, key, key);
    InsertLookup(m, (key, v1), key);
    InsertLookup(m1, (key, v2), key);
  }

  /** After `erase(key)` the key is absent and every other key keeps its value. */
  lemma EraseKeyLookup<K(!new), V>(m: Map<K, V>, key: K, other: K)
    requires Valid(m)
    ensures Lookup(EraseKey(m, key), other)
         == if Equivalent(m.less, other, key) then None else Lookup(m, other)
  {
    var r := EraseKey(m, key);
    if Equivalent(m.less, other, key) {
      if Contains(r, other) {
        var j :| 0 <= j < |r.entries| && Equivalent(m.less, r.entries[j].0, other);
        EquivalentProperties(m.less, r.entries[j].0, other, key);
      }
    } else if Contains(m, other) {
      var i :| 0 <= i < |m.entries| && Equivalent(m.less, m.entries[i].0, other);
      EquivalentProperties(m.less, m.entries[i].0, other, key);
      assert m.entries[i] in r.entries;
      var j :| 0 <= j < |r.entries| && r.entries[j] == m.entries[i];
      assert Equivalent(m.less, r.entries[j].0, other);
    } else {
      assert !Contains(r, other) by {
        forall j | 0 <= j < |r.entries|
          ensures !Equivalent(m.less, r.entries[j].0, other)
        {
          assert r.entries[j] in m.entries;
        }
      }
    }
  }

  /** `operator[]` reads the stored value of a present key and the default value of
      an absent one; other keys are unaffected. */
  lemma SubscriptLookup<K(!new), V>(m: Map<K, V>, key: K, default: V, other: K)
    requires Valid(m)
    ensures var r := Subscript(m, key, default);
            r.after.entries[r.pos].1 == (if Contains(m, key) then Lookup(m, key).value else default)
    ensures Lookup(Subscript(m, key, default).after, other)
         == if Contains(m, other) then Lookup(m, other)
            else if Equivalent(m.less, other, key) then Some(default)
            else None
  {
    var r := Subscript(m, key, default);
    if Contains(m, key) {
      EquivalentProperties(m.less, r.after.entries[r.pos].0, key, key);
    } else {
      InsertLookup(m, (key, default), other);
    }
  }

  /** A key whose entry satisfies `p`, or that was never present, is absent after
      `erase_if(p)`. */
  lemma EraseIfRemovesKey<K(!new), V>(m: Map<K, V>, p: ((K, V)) -> bool, key: K)
    requires Valid(m)
    requires Contains(m, key) ==> p(m.entries[Find(m, key)])
    ensures !Contains(EraseIf(m, p), key)
  {
    var r := EraseIf(m, p);
    forall j | 0 <= j < |r.entries|
      ensures !Equivalent(m.less, r.entries[j].0, key)
    {
      var i :| 0 <= i < |m.entries| && m.entries[i] == r.entries[j];
      if Equivalent(m.less, m.entries[i].0, key) {
        EquivalentEntryUnique(m, key, i, Find(m, key));
      }
    }
  }

  /** After `erase_if(p)` a key keeps its value exactly when its entry fails `p`. */
  lemma EraseIfLookup<K(!new), V>(m: Map<K, V>, p: ((K, V)) -> bool, key: K)
    requires Valid(m)
    ensures Lookup(EraseIf(m, p), key)
         == if Contains(m, key) && !p(m.entries[Find(m, key)]) then Lookup(m, key) else None
  {
    if Contains(m, key) && !p(m.entries[Find(m, key)]) {
      var x := m.entries[Find(m, key)];
      LookupOfMember(m, x, key);
      LookupOfMember(EraseIf(m, p), x, key);
    } else {
      EraseIfRemovesKey(m, p, key);
    }
  }

  // ---------------------------------------------------------------------------
  // Round trips

  /** Inserting an absent key and then erasing it gives back the original map. */
  lemma {:induction false} InsertThenEraseIsIdentity<K(!new), V>(m: Map<K, V>, entry: (K, V))
    requires Valid(m)
    requires !Contains(m, entry.0)
    ensures EraseKey(Insert(m, entry).after, entry.0) == m
  {
    var r := Insert(m, entry);
    var p := r.pos;
    var f := Find(r.after, entry.0);
    EquivalentProperties(m.less, r.after.entries[p].0, entry.0, entry.0);
    EquivalentEntryUnique(r.after, entry.0, f, p);
    RemoveInserted(m.entries, p, entry);
  }

  /** Removing the element just placed at position `p` gives the sequence back. */
  lemma RemoveInserted<T>(s: seq<T>, p: nat, x: T)
    requires p <= |s|
    ensures var t := s[..p] + [x] + s[p..]; t[..p] + t[p + 1..] == s
  {
    var t := s[..p] + [x] + s[p..];
    assert t[..p] == s[..p];
    assert t[p + 1..] == s[p..];
  }

  /** In the entries with position `i` removed, the removed key's lower bound is `i`. */
  lemma RemovedKeyLowerBound<K(!new), V>(m: Map<K, V>, i: nat, rest: Map<K, V>)
    requires Valid(m) && i < |m.entries|
    requires rest.less == m.less && rest.entries == m.entries[..i] + m.entries[i + 1..]
    requires Valid(rest)
    ensures LowerBound(rest, m.entries[i].0) == i
  {
    var key := m.entries[i].0;
    assert forall j :: 0 <= j < |rest.entries| ==> rest.entries[j] == m.entries[if j < i then j else j + 1];
    assert forall j :: i <= j < |rest.entries| ==> m.less(key, rest.entries[j].0);
    BoundaryUnique(m.less, rest.entries, key, LowerBound(rest, key), i, |rest.entries|);
  }

  /** Erasing a present key and inserting its entry again gives back the original
      map. */
  lemma {:induction false} EraseThenInsertIsIdentity<K(!new), V>(m: Map<K, V>, key: K)
    requires Valid(m)
    requires Contains(m, key)
    ensures Insert(EraseKey(m, key), m.entries[Find(m, key)]).after == m
  {
    var i := Find(m, key);
    var x := m.entries[i];
    var m1 := EraseKey(m, key);
    EquivalentProperties(m.less, x.0, key, key);
    RemovedKeyLowerBound(m, i, m1);
    assert m.entries == m.entries[..i] + [x] + m.entries[i + 1..];
  }

  // ---------------------------------------------------------------------------
  // Building from a range

  /** `insert(first, last)`: a key already present keeps its value; otherwise the
      first input entry with that key wins. */
  lemma {:induction false} InsertRangeLookup<K(!new), V>(m: Map<K, V>, input: seq<(K, V)>, key: K)
    requires Valid(m)
    ensures Lookup(InsertRange(m, input), key)
         == if Contains(m, key) then Lookup(m, key) else FirstValue(m.less, input, key)
    decreases |input|
  {
    if |input| > 0 {
      var m1 := Insert(m, input[0]).after;
      InsertLookup(m, input[0], key);
      InsertRangeLookup(m1, input[1..], key);
    }
  }

  /** Inserting an absent key adds exactly its entry. */
  lemma InsertAddsEntry<K(!new), V>(m: Map<K, V>, entry: (K, V))
    requires Valid(m)
    requires !Contains(m, entry.0)
    ensures multiset(Insert(m, entry).after.entries) == multiset(m.entries) + multiset{entry}
  {
    var r := Insert(m, entry);
    assert m.entries == m.entries[..r.pos] + m.entries[r.pos..];
  }

  /** A key is present after `insert(entry)` exactly when it was present before or is
      equivalent to the inserted key. */
  lemma InsertContains<K(!new), V>(m: Map<K, V>, entry: (K, V), key: K)
    requires Valid(m)
    ensures Contains(Insert(m, entry).after, key) <==> Contains(m, key) || Equivalent(m.less, key, entry.0)
  {
    InsertLookup(m, entry, key);
  }

  /** Entries whose keys are distinct from each other and absent from `m`. */
  ghost predicate FreshEntries<K(!new), V>(m: Map<K, V>, input: seq<(K, V)>)
  {
    KeysDistinct(m.less, input) && forall i :: 0 <= i < |input| ==> !Contains(m, input[i].0)
  }

  /** After inserting the first of several fresh entries, the others are still
      fresh. */
  lemma RestStillFresh<K(!new), V>(m: Map<K, V>, input: seq<(K, V)>)
    requires Valid(m) && |input| > 0
    requires FreshEntries(m, input)
    ensures FreshEntries(Insert(m, input[0]).after, input[1..])
  {
    var rest := input[1..];
    forall i | 0 <= i < |rest|
      ensures !Contains(Insert(m, input[0]).after, rest[i].0)
    {
      InsertContains(m, input[0], rest[i].0);
      assert !Equivalent(m.less, input[0].0, input[i + 1].0);
    }
    assert forall i :: 0 <= i < |rest| ==> rest[i] == input[i + 1];
  }

  /** One step of range `insert` over fresh entries: the first entry is added, the
      rest stay fresh, and the remaining inserts continue from there. */
  lemma InsertRangeStep<K(!new), V>(m: Map<K, V>, input: seq<(K, V)>)
    requires Valid(m) && |input| > 0
    requires FreshEntries(m, input)
    ensures Valid(Insert(m, input[0]).after)
    ensures FreshEntries(Insert(m, input[0]).after, input[1..])
    ensures multiset(Insert(m, input[0]).after.entries) + multiset(input[1..])
         == multiset(m.entries) + multiset(input)
    ensures InsertRange(m, input) == InsertRange(Insert(m, input[0]).after, input[1..])
  {
    InsertAddsEntry(m, input[0]);
    RestStillFresh(m, input);
    assert input == [input[0]] + input[1..];
  }

  /** Inserting fresh entries adds exactly those entries. */
  lemma {:induction false} InsertRangeAddsAll<K(!new), V>(m: Map<K, V>, input: seq<(K, V)>)
    requires Valid(m)
    requires FreshEntries(m, input)
    ensures multiset(InsertRange(m, input).entries) == multiset(m.entries) + multiset(input)
    decreases |input|
  {
    if |input| > 0 {
      InsertRangeStep(m, input);
      InsertRangeAddsAll(Insert(m, input[0]).after, input[1..]);
    }
  }

  /** For distinct keys the range constructor and range `insert` into an empty map
      build the same map, although one sorts once and the other inserts one by
      one. */
  lemma FromRangeIsInsertRange<K(!new), V>(less: (K, K) -> bool, input: seq<(K, V)>)
    requires StrictWeakOrder(less)
    requires KeysDistinct(less, input)
    ensures FromRange(less, input) == InsertRange(Empty(less), input)
  {
    var a := FromRange(less, input);
    var b := InsertRange(Empty(less), input);
    InsertRangeAddsAll(Empty(less), input);
    assert multiset(Empty<K, V>(less).entries) == multiset{};
    AscendingPermutationUnique(less, a.entries, b.entries);
  }

  /** With a repeated key the two differ: the range constructor keeps both entries
      (and the result breaks the map invariant), range `insert` keeps the first. After
      the range constructor, `erase(1)` leaves key 1 in the map; after the first-wins
      construction it does not. */
  lemma FromRangeKeepsDuplicates()
    ensures StrictWeakOrder(IntLess)
    ensures var input := [(1, 'a'), (1, 'b')];
            && |FromRange(IntLess, input).entries| == 2
            && !Valid(FromRange(IntLess, input))
            && Lookup(InsertRange(Empty(IntLess), input), 1) == Some('a')
            && Contains(EraseKey(FromRange(IntLess, input), 1), 1)
            && !Contains(EraseKey(FromRangeFirstWins(IntLess, input), 1), 1)
  {
    IntLessIsStrictWeakOrder();
    var input := [(1, 'a'), (1, 'b')];
    var r := FromRange(IntLess, input);
    assert r.entries[0] in multiset(input) && r.entries[1] in multiset(input);
    InsertRangeLookup(Empty(IntLess), input, 1);
    EraseKeyLeavesDuplicate(r, 1, 0, 1);
  }

  /** `erase(key)` removes only the entry `find` designates: in an ordered state with
      two entries for `key` (which the range constructors build from a repeated key),
      the key is still present afterwards. */
  lemma EraseKeyLeavesDuplicate<K(!new), V>(m: Map<K, V>, key: K, i: nat, j: nat)
    requires Ordered(m)
    requires i < j < |m.entries|
    requires Equivalent(m.less, m.entries[i].0, key) && Equivalent(m.less, m.entries[j].0, key)
    ensures Contains(EraseKey(m, key), key)
  {
    assert Contains(m, key);
    var f := Find(m, key);
    var r := EraseKey(m, key);
    var k := if f == j then i else j;
    var pos := if k < f then k else k - 1;
    assert r.entries[pos] == m.entries[k];
  }

  /** The range constructors as the drop-in replacement for `std::map` is meant to
      behave: the elements inserted one by one, so a repeated key keeps its first
      value and the result is always a valid map. For distinct keys it is exactly what
      the range constructor builds. */
  function FromRangeFirstWins<K(!new), V>(less: (K, K) -> bool, input: seq<(K, V)>): (r: Map<K, V>)
    requires StrictWeakOrder(less)
    ensures Valid(r) && r.less == less
    ensures forall key :: Lookup(r, key) == FirstValue(less, input, key)
    ensures KeysDistinct(less, input) ==> r == FromRange(less, input)
  {
    var r := InsertRange(Empty(less), input);
    assert forall key :: Lookup(r, key) == FirstValue(less, input, key) by {
      forall key
        ensures Lookup(r, key) == FirstValue(less, input, key)
      {
        InsertRangeLookup(Empty(less), input, key);
      }
    }
    assert KeysDistinct(less, input) ==> r == FromRange(less, input) by {
      if KeysDistinct(less, input) {
        FromRangeIsInsertRange(less, input);
      }
    }
    r
  }

  // ---------------------------------------------------------------------------
  // Ranges

  /** `equal_range` is the standard `(lower_bound, upper_bound)` for a present key;
      for an absent key the standard range is empty at the lower bound, whereas
      `equal_range` returns `(end, end)`. */
  lemma EqualRangeBounds<K(!new), V>(m: Map<K, V>, key: K)
    requires Valid(m)
    ensures Contains(m, key) ==> EqualRange(m, key) == (LowerBound(m, key), UpperBound(m, key))
    ensures !Contains(m, key) ==> LowerBound(m, key) == UpperBound(m, key)
  {
    var lb, ub := LowerBound(m, key), UpperBound(m, key);
    if Contains(m, key) {
      var i := EqualRange(m, key).0;
      BoundaryUnique(m.less, m.entries, key, lb, i, |m.entries|);
    } else if lb < |m.entries| {
      var pivot := m.entries[lb].0;
    }
  }

  // ---------------------------------------------------------------------------
  // The narrowing of `int count = m_entries.size()`

  /** A map with keys 0 .. 2^31 - 1: `find(1)` as written returns the entry for key
      0, because the narrowed count is negative and the search loop never runs;
      the corrected `find` returns the entry for key 1. */
  lemma FindAsWrittenMissesPresentKey()
    ensures var m := Map(IntLess, seq(0x8000_0000, i => (i, 0)));
            && Valid(m)
            && Contains(m, 1)
            && FindAsWritten(m, 1) == 0
            && m.entries[FindAsWritten(m, 1)].0 == 0
            && Find(m, 1) == 1
  {
    var m := Map(IntLess, seq(0x8000_0000, i => (i, 0)));
    assert m.entries[1] == (1, 0);
    assert SearchedPrefix(|m.entries|) == 0;
    var f := Find(m, 1);
    assert m.entries[f] == (f, 0);
  }

  // ---------------------------------------------------------------------------
  // A worked example

  /** The comparator of the worked example: `std::less<int>`. */
  function IntLess(a: int, b: int): bool
  {
    a < b
  }

  /** `std::less<int>` is a strict weak ordering. */
  lemma IntLessIsStrictWeakOrder()
    ensures StrictWeakOrder(IntLess)
  {
  }

  /** The entries of the worked example, in input order and in key order. */
  lemma ExampleEntries(input: seq<(int, char)>, sorted: seq<(int, char)>)
    requires input == [(5, 'e'), (1, 'a'), (3, 'c')]
    requires sorted == [(1, 'a'), (3, 'c'), (5, 'e')]
    ensures multiset(input) == multiset(sorted)
    ensures KeysDistinct(IntLess, input) && Ascending(IntLess, sorted)
  {
  }

  /** Inserting 5, 1 and 3 in that order stores the entries by ascending key. */
  lemma InsertRangeExample(input: seq<(int, char)>, sorted: seq<(int, char)>)
    requires input == [(5, 'e'), (1, 'a'), (3, 'c')]
    requires sorted == [(1, 'a'), (3, 'c'), (5, 'e')]
    ensures StrictWeakOrder(IntLess)
    ensures InsertRange(Empty(IntLess), input).entries == sorted
  {
    IntLessIsStrictWeakOrder();
    ExampleEntries(input, sorted);
    var empty := Empty<int, char>(IntLess);
    var m := InsertRange(empty, input);
    InsertRangeAddsAll(empty, input);
    assert multiset(empty.entries) == multiset{};
    AscendingPermutationUnique(IntLess, m.entries, sorted);
  }

  /** Erasing 3 from the entries 1, 3, 5 leaves 1 and 5. */
  lemma EraseKeyExample(before: seq<(int, char)>, after: seq<(int, char)>)
    requires before == [(1, 'a'), (3, 'c'), (5, 'e')]
    requires after == [(1, 'a'), (5, 'e')]
    ensures StrictWeakOrder(IntLess)
    ensures EraseKey(Map(IntLess, before), 3).entries == after
  {
    IntLessIsStrictWeakOrder();
    var m := Map(IntLess, before);
    assert Equivalent(IntLess, before[1].0, 3);
  }
}

=== FILE: wrappers.dfy ===
/** Optional value used where the source returns a null pointer, an "end"
    sentinel or raises an error. */
module Wrappers {

  datatype Option<+T> = None | Some(value: T)
}
